=== FILE: README.md ===
# Support ticket center — a Dafny model

This project models the logic of a small support-ticket application: a React
single-page client and a Django backend.

- **The ticket store** is the `tickets` state of the `App` component (`App.Store`). A created ticket gets
  id `tickets.length + 1` and goes to the front of the list. A status change rewrites the `status` of every
  ticket whose id matches. Starting from the three seed tickets (ids 1, 2, 3), the ids stay exactly
  `{1..|tickets|}`, each on one ticket, whatever sequence of creates and status changes follows.
- **The creation form** is a class over the component's six state variables, plus the timer the debounce
  effect arms (`TicketForm.Form`). The mocked keyword classifier is `SuggestCategory` / `SuggestPriority`.
  The auto-classification guard and the submit guard are predicates. Each awaited call is one atomic step,
  and whether it fails is a parameter.
- **The ticket browser** (`TicketList`) is made of pure functions: the four-way filter, the stable
  newest-first sort, and the `open → in_progress → resolved → open` status rotation.
- **The statistics cards** (`StatsDashboard`) are pure folds: the total, the open count, the
  distinct-day count floored at 1, the average per day, and the two count-by-value breakdowns.
- **The backend views** (`Views`) cover the parts of `TicketClassifyView.post` and `TicketStatsView.get`
  that do not touch the ORM or the network. These are request validation, markdown-fence clean-up,
  clamping the model's answer into the allowed sets, the average guard and the `setdefault` zero-fill.
  The API key, the model's reply, `json.loads` and the query results are inputs.

Timestamps are integers (milliseconds). The calendar day of a timestamp depends on the browser's time zone,
so the dashboard takes it as a function parameter `day`. Category, priority and status stay strings, as in
the source. The reason is that the filters compare them as text and the rotation must handle unknown values.

The store numbers a new ticket `tickets.length + 1`, which would reuse ids if tickets could be deleted.
The model follows the code. Tickets are never deleted, so the ids stay exactly 1..n, each once
(`App.SessionIdsAreOneToN`). The client's categories (Technical, Billing, General, Bug Report) and the
backend's allowed categories (billing, technical, account, general) differ; each side is modelled with its
own set.

## Model

| member | source | states |
|---|---|---|
| `App.Seed` | CLIENT/src/App.jsx:8-36 | the initial list has three tickets, and their ids are exactly 1..3, each once |
| `App.Store.constructor` | CLIENT/src/App.jsx:8-36 | the store starts with the seed list and satisfies its id invariant |
| `App.Store.HandleTicketCreated` | CLIENT/src/App.jsx:38-44 | the length grows by exactly 1; the new ticket is at index 0 with id old length + 1 and every draft field unchanged; the old list is the tail; the id invariant is kept |
| `App.Store.HandleStatusChange` | CLIENT/src/App.jsx:46-48 | length, order and ids are kept; only the status of tickets with a matching id changes, and every other field of every ticket is unchanged; the id invariant is kept |
| `App.NewIdIsFresh` | CLIENT/src/App.jsx:41 | when the ids are 1..n, the id a create hands out is larger than every id present |
| `App.CreatedKeepsIdsOneToN` | CLIENT/src/App.jsx:41-43 | a create turns ids 1..n (each once) into ids 1..n+1 (each once) |
| `App.StatusChangedKeepsIds` | CLIENT/src/App.jsx:47 | a status change keeps the length, the id at every position and the id set |
| `App.StatusChangedKeepsIdsOneToN` | CLIENT/src/App.jsx:47 | a status change keeps the ids 1..n, each once |
| `App.StatusChangeOfUnknownId` | CLIENT/src/App.jsx:47 | a status change for an id not in the list leaves the list identical |
| `App.StatusChangeLastWins` | CLIENT/src/App.jsx:47 | two status changes to one id equal the second one alone |
| `App.Created` | CLIENT/src/App.jsx:38-43 | the new list is one longer; its head carries id length + 1 and the draft's fields unchanged; its tail is the old list |
| `App.StatusChanged` | CLIENT/src/App.jsx:46-47 | length and ids are kept position by position; the status is the new one exactly where the id matches; every other field is kept |
| `App.Step` | CLIENT/src/App.jsx:38-48 | one handler call grows the list by one for a create and keeps its length for a status change; the old ids stay at the back, in order |
| `App.IdsAtBackTrans` | CLIENT/src/App.jsx:43-47 | ids kept at the back over two steps are kept at the back overall |
| `App.Replay` | CLIENT/src/App.jsx:38-48 | a session's list has one ticket more per create, and the starting tickets' ids stay at its back, in order |
| `App.StepKeepsIdsOneToN` | CLIENT/src/App.jsx:38-48 | either handler keeps the ids 1..n, each once |
| `App.ReplayKeepsIdsOneToN` | CLIENT/src/App.jsx:38-48 | any sequence of creates and status changes keeps the ids 1..n, each once |
| `App.SessionIdsAreOneToN` | CLIENT/src/App.jsx:10-47 | from the seed, after any sequence of actions, the id set is exactly {1..n} and no two tickets share an id |
| `App.SubmitForm` | CLIENT/src/App.jsx:61 | a submit that emits a ticket creates it in the store and leaves the four form fields empty; one that emits nothing leaves the store and the four fields as they were; the classifying flag is untouched, and the submitting flag is down after any submit that passed the guard |
| `App.RotateTicket` | CLIENT/src/App.jsx:65 | clicking a ticket sets the status of its id in the store to the next status of the cycle |
| `Tickets.WithId` | CLIENT/src/App.jsx:39-42 | the stored ticket has the given id, and removing the id gives back the draft unchanged |
| `TicketForm.SuggestCategory` | CLIENT/src/components/TicketForm.jsx:36-37 | Billing iff the lowercased text contains "money" or "payment"; else Bug Report iff it contains "break" or "error"; else Technical; always in CATEGORIES, never General |
| `TicketForm.SuggestPriority` | CLIENT/src/components/TicketForm.jsx:38 | High iff the text is longer than 100 UTF-16 code units or mentions "urgent", otherwise Medium; always in PRIORITIES, never Low |
| `TicketForm.UrgentPaymentScenario` | CLIENT/src/components/TicketForm.jsx:36-38 | "payment failed, please help urgent" is classified Billing / High |
| `TicketForm.AutoClassifyGuard` | CLIENT/src/components/TicketForm.jsx:17 | the debounce guard: the description is longer than 10 UTF-16 code units, and neither category nor priority is chosen |
| `TicketForm.SixEmojiPassGuard` | CLIENT/src/components/TicketForm.jsx:17 | six emoji (twelve UTF-16 code units) pass the length test of the debounce guard |
| `TicketForm.SubmitGuard` | CLIENT/src/components/TicketForm.jsx:51 | the submit guard: all four fields are non-empty |
| `TicketForm.SubmitOutcome` | CLIENT/src/components/TicketForm.jsx:51-68 | a ticket is emitted iff all four fields are non-empty and the call does not fail; the ticket carries the four field values, status "open" and the submit instant |
| `TicketForm.Form.constructor` | CLIENT/src/components/TicketForm.jsx:7-23 | the form starts with empty fields, both flags down, and a timer armed for the empty description |
| `TicketForm.Form.ChangeTitle` | CLIENT/src/components/TicketForm.jsx:95 | typing sets the title |
| `TicketForm.Form.ChangeDescription` | CLIENT/src/components/TicketForm.jsx:15-23 | typing sets the description, cancels the pending timer and arms a new one over the current state |
| `TicketForm.Form.ChangeCategory` | CLIENT/src/components/TicketForm.jsx:125 | selecting sets the category and leaves the pending timer alone |
| `TicketForm.Form.ChangePriority` | CLIENT/src/components/TicketForm.jsx:137 | selecting sets the priority and leaves the pending timer alone |
| `TicketForm.Form.ClassifyDescription` | CLIENT/src/components/TicketForm.jsx:25-47 | on success, the category and priority are the suggestions for the description; on failure, they are unchanged; the classifying flag is down either way |
| `TicketForm.Form.DebounceElapsedAsWritten` | CLIENT/src/components/TicketForm.jsx:16-19 | when the timer fires, classification runs iff the guard holds on the description, category and priority captured when the timer was armed |
| `TicketForm.Form.DebounceElapsed` | CLIENT/src/components/TicketForm.jsx:17 | with the guard on the current state, classification runs iff the description is longer than 10 UTF-16 code units and neither category nor priority is set, so a chosen category or priority is never overwritten |
| `TicketForm.Form.HandleSubmit` | CLIENT/src/components/TicketForm.jsx:49-80 | with any field empty, nothing is emitted and no state changes; otherwise the emitted ticket is `SubmitOutcome`'s, the four fields are empty after a hand-over and unchanged after a failure, and the submitting flag is down at the end |
| `TicketForm.StaleGuardOverwritesChoice` | CLIENT/src/components/TicketForm.jsx:15-23 | a category chosen while the timer is pending is overwritten when the timer fires |
| `TicketForm.CurrentGuardKeepsChoice` | CLIENT/src/components/TicketForm.jsx:17 | with the guard on the current state, the same session keeps the chosen category |
| `TicketList.Filter` | CLIENT/src/components/TicketList.jsx:22-30 | the result is a subsequence of the input; every kept ticket satisfies all four predicates; every matching ticket is kept as often as it occurs |
| `TicketList.SearchMatches` | CLIENT/src/components/TicketList.jsx:27-28 | the lowercased term occurs in the lowercased title or in the lowercased description |
| `TicketList.Matches` | CLIENT/src/components/TicketList.jsx:23-29 | the AND of the category, priority and status selects (each off on "All") and the search match |
| `TicketList.NoFiltersKeepsAll` | CLIENT/src/components/TicketList.jsx:24-28 | with every select on "All" and an empty search, the filter returns the input unchanged |
| `TicketList.AllImposesNothing` | CLIENT/src/components/TicketList.jsx:24-28 | a select set to "All" excludes no ticket, and the empty search term matches every ticket |
| `TicketList.SearchIgnoresCase` | CLIENT/src/components/TicketList.jsx:27-28 | a term and its lowercase form match the same tickets; a match means the lowercased term occurs in the lowercased title or the lowercased description |
| `TicketList.DarkModeScenario` | CLIENT/src/components/TicketList.jsx:27-28 | the search "dark mode" finds the ticket titled "Feature request: Dark mode" |
| `TicketList.KeepThenKeepWhereAll` | CLIENT/src/components/TicketList.jsx:23-30 | filtering by one predicate and then by a conjunction equals filtering once by the larger conjunction |
| `TicketList.KeepAllIsKeepWhereAll` | CLIENT/src/components/TicketList.jsx:23-30 | filtering by the predicates one after another equals filtering once by their conjunction |
| `TicketList.KeepWhereNothing` | CLIENT/src/components/TicketList.jsx:23-30 | filtering by an empty conjunction keeps every ticket |
| `TicketList.KeepWhereAllSameCriteria` | CLIENT/src/components/TicketList.jsx:23-30 | a conjunction filter depends only on which predicates it contains |
| `TicketList.FilterIsKeepWhereAll` | CLIENT/src/components/TicketList.jsx:23-30 | the filter callback equals the conjunction filter over its four predicates |
| `TicketList.PredicateOrderIrrelevant` | CLIENT/src/components/TicketList.jsx:24-29 | applying the four predicates one after another, in any order, keeps exactly the tickets the single filter keeps |
| `TicketList.Insert` | CLIENT/src/components/TicketList.jsx:31 | insertion adds exactly the one ticket to the multiset |
| `TicketList.InsertNewestFirst` | CLIENT/src/components/TicketList.jsx:31 | inserting into a newest-first list keeps it newest first |
| `TicketList.InsertStampedAt` | CLIENT/src/components/TicketList.jsx:31 | the inserted ticket goes ahead of every ticket with its timestamp; the order within every other timestamp is unchanged |
| `TicketList.SortNewestFirst` | CLIENT/src/components/TicketList.jsx:31 | the result has non-increasing timestamps and is a permutation of the input; tickets with equal timestamps keep their input order (stable sort) |
| `TicketList.Visible` | CLIENT/src/components/TicketList.jsx:22-31 | the visible list is newest first; it holds exactly the matching tickets with their multiplicities; ties keep the filtered order |
| `TicketList.IndexOf` | CLIENT/src/components/TicketList.jsx:53 | returns the first index of the value, or -1 exactly when the value is absent |
| `TicketList.NextStatus` | CLIENT/src/components/TicketList.jsx:52-54 | the next status is always one of open, in_progress, resolved |
| `TicketList.RotationCycle` | CLIENT/src/components/TicketList.jsx:52-54 | open goes to in_progress, in_progress to resolved and resolved to open; any other value goes to open |
| `TicketList.ThreeRotationsAreIdentity` | CLIENT/src/components/TicketList.jsx:52-54 | three rotations return a valid status to itself, and from any status after the first rotation |
| `TicketList.RotationRequest` | CLIENT/src/components/TicketList.jsx:51-55 | the request names the clicked ticket's id and a valid status |
| `StatsDashboard.OpenCount` | CLIENT/src/components/StatsDashboard.jsx:6 | the open count is at most the total; it is 0 iff no ticket is open and equals the total iff all are |
| `StatsDashboard.DaySet` | CLIENT/src/components/StatsDashboard.jsx:9-10 | holds exactly the days of the tickets; has at most as many days as tickets, and at least one when there is a ticket |
| `StatsDashboard.UniqueDates` | CLIENT/src/components/StatsDashboard.jsx:10 | at least 1; exactly 1 for an empty list; otherwise the number of distinct days, at most the total |
| `StatsDashboard.AvgPerDay` | CLIENT/src/components/StatsDashboard.jsx:9-11 | 0 for an empty list; otherwise between 1 and the total; equal to the total when all tickets share one day |
| `StatsDashboard.MapSumRemove` | CLIENT/src/components/StatsDashboard.jsx:13-21 | the sum of a breakdown's counts does not depend on the order of its keys |
| `StatsDashboard.BumpSum` | CLIENT/src/components/StatsDashboard.jsx:14 | one reduce step adds exactly 1 to the sum of the counts |
| `StatsDashboard.Bump` | CLIENT/src/components/StatsDashboard.jsx:14 | one reduce step: the key is added if missing and counts one more; every other key keeps its count |
| `StatsDashboard.Tally` | CLIENT/src/components/StatsDashboard.jsx:13-21 | the reduce over the tickets, one `Bump` per ticket from the given accumulator (its keys, counts and sum are stated by `TallyKeys`, `TallyCounts`, `TallySum`) |
| `StatsDashboard.Breakdown` | CLIENT/src/components/StatsDashboard.jsx:13-21 | the reduce started from `{}` (its meaning is stated by `BreakdownSpec`) |
| `StatsDashboard.TallyKeys` | CLIENT/src/components/StatsDashboard.jsx:13-21 | the reduce's keys are the accumulator's keys plus the values seen |
| `StatsDashboard.TallyCounts` | CLIENT/src/components/StatsDashboard.jsx:13-21 | each count is the accumulator's count plus the value's occurrences |
| `StatsDashboard.TallySum` | CLIENT/src/components/StatsDashboard.jsx:13-21 | the counts' sum grows by the number of tickets |
| `StatsDashboard.OccursOfValue` | CLIENT/src/components/StatsDashboard.jsx:13-21 | a value that some ticket has occurs at least once |
| `StatsDashboard.BreakdownSpec` | CLIENT/src/components/StatsDashboard.jsx:13-21 | the breakdown's keys are exactly the values that occur; each count is that value's number of tickets (so at least 1); the counts sum to the total |
| `StatsDashboard.ComputeStats` | CLIENT/src/components/StatsDashboard.jsx:4-24 | total is the list length; open is the open count; the average is `AvgPerDay`'s; each breakdown's keys are the values that occur, each count is that value's number of tickets, and the counts sum to the total |
| `StatsDashboard.OneOfEachStatusOnOneDay` | CLIENT/src/components/StatsDashboard.jsx:5-11 | three tickets (open, in_progress, resolved) on one day give total 3, open 1 and an average of 3 per day |
| `Strings.Contains` | CLIENT/src/components/TicketList.jsx:27-28 | `includes` is true exactly when some window of the text equals the needle |
| `Strings.Lower` | CLIENT/src/components/TicketList.jsx:27-28 | same length, and every character is mapped by ASCII lowercasing |
| `Strings.Utf16Length` | CLIENT/src/components/TicketForm.jsx:17 | JavaScript `.length`: between the number of characters and twice it, and equal to it when every character is in the Basic Multilingual Plane |
| `Strings.Utf16LengthChar` | CLIENT/src/components/TicketForm.jsx:17 | a character counts one code unit below U+10000 and two at or above it |
| `Strings.Utf16LengthConcat` | CLIENT/src/components/TicketForm.jsx:17 | the code-unit length of a concatenation is the sum of the parts' lengths, so the length is the per-character count summed |
| `Strings.StartsWith` | BACKEND/core/views.py:115-117 | `startswith`: the first characters of the text spell the prefix |
| `Strings.ContainsEmpty` | CLIENT/src/components/TicketList.jsx:27-28 | every string contains the empty string |
| `Strings.LowerIdempotent` | CLIENT/src/components/TicketList.jsx:27-28 | lowercasing twice equals lowercasing once |
| `Strings.RemoveAll` | BACKEND/core/views.py:116 | `replace(p, "")` never lengthens the text |
| `Strings.RemoveFenceLeadingTicks` | BACKEND/core/views.py:116 | removing "```" leaves the leading run of backticks at its length modulo 3 |
| `Strings.RemoveAllAbsent` | BACKEND/core/views.py:116 | a text without the needle is left as it is |
| `Strings.RemoveAllLeading` | BACKEND/core/views.py:116 | a needle at the front is removed and scanning resumes after it |
| `Strings.RemoveAllSkipsPlain` | BACKEND/core/views.py:116 | a prefix holding no character that opens the needle passes through unchanged |
| `Strings.RemoveFenceLeavesNoFence` | BACKEND/core/views.py:116 | after `replace("```", "")` the text contains no "```" |
| `Strings.StripBy` | BACKEND/core/views.py:112-118 | `strip(chars)` returns s with stripped characters cut from each end only; the result neither starts nor ends with one, and is empty only when every character is stripped |
| `Strings.StripByKeeps` | BACKEND/core/views.py:112-118 | a text whose ends are not stripped characters is its own strip |
| `Strings.StripByAll` | BACKEND/core/views.py:112-118 | a text made only of stripped characters strips to the empty string |
| `Strings.StripByPadded` | BACKEND/core/views.py:118 | padding of stripped characters around a text with unstripped ends is exactly what the strip removes |
| `Strings.Strip` | BACKEND/core/views.py:112 | `strip()`: Python whitespace is cut from both ends only; the result's ends are not whitespace, and it is empty only for an all-whitespace text |
| `Views.ValidateRequest` | BACKEND/core/views.py:62-70 | a body that is not an object gets 400 with the format error; a missing or falsy description gets 400 "Description is required"; otherwise the request passes |
| `Views.Truthy` | BACKEND/core/views.py:69 | Python truthiness: null, false, zero, the empty string, the empty list and the empty object are falsy |
| `Views.HasDescription` | BACKEND/core/views.py:68-69 | the body is an object with a truthy `description` |
| `Views.RemoveJsonFences` | BACKEND/core/views.py:115-116 | the cleaned content contains neither "```" nor "```json" |
| `Views.StripBackticks` | BACKEND/core/views.py:117-118 | the cleaned content is a slice of the reply |
| `Views.CleanFences` | BACKEND/core/views.py:115-118 | content opening with "```json" ends up with no fence; content opening with another "```" ends up as a slice of itself; any other content is untouched |
| `Views.JsonFenceRoundTrip` | BACKEND/core/views.py:116 | a payload without backticks fenced as "```json … ```" comes back as the stripped payload |
| `Views.BacktickFenceRoundTrip` | BACKEND/core/views.py:118 | a payload fenced as "``` … ```" whose ends are not backticks comes back as the stripped payload |
| `Views.FenceOpener` | BACKEND/core/views.py:115-117 | a "```" fence opens with "```json" only when its payload starts with "json" |
| `Views.CleanJsonFence` | BACKEND/core/views.py:115-116 | the clean-up returns the stripped payload of a "```json" fence |
| `Views.CleanPlainFence` | BACKEND/core/views.py:117-118 | the clean-up returns the stripped payload of a plain "```" fence |
| `Views.LowerOf` | BACKEND/core/views.py:122-126 | `.lower()` succeeds exactly on a string; the result has the same length and is already lowercase |
| `Views.ClampField` | BACKEND/core/views.py:122-128 | the value is always allowed; a missing key gives the default; a string whose lowercase form is allowed gives that form; any other string gives the default; a non-string value raises |
| `Views.Clamp` | BACKEND/core/views.py:120-133 | a successful clamp yields exactly the clamped category and the clamped priority of the classification's fields, both allowed; it raises exactly for a non-object or a non-string field |
| `Views.ClassifyPost` | BACKEND/core/views.py:58-137 | 400 exactly when validation fails, with the right message; no API key, a failed call, a failed decode or a failed clamp gives {general, low}; otherwise the answer is the clamped classification of the decoded, cleaned reply, always in the allowed sets |
| `Views.FencedJsonReply` | BACKEND/core/views.py:112-137 | a reply fenced as "```json … ```" is decoded from its stripped payload; the answer is that payload's clamped classification, or {general, low} when decoding or clamping raises |
| `Views.SumAtMost` | BACKEND/core/views.py:34 | counts bounded above by m sum to at most n*m |
| `Views.SumAtLeast` | BACKEND/core/views.py:34 | counts bounded below by m sum to at least n*m |
| `Views.AveragePerDay` | BACKEND/core/views.py:33-36 | 0 with no daily groups; otherwise average times the number of groups equals the sum of the counts |
| `Views.AverageWithinBounds` | BACKEND/core/views.py:33-36 | the average lies between any lower and any upper bound of the daily counts |
| `Views.ToDict` | BACKEND/core/views.py:41-42 | the dict's keys are the rows' keys, and each key maps to the count of its last row |
| `Views.ZeroFill` | BACKEND/core/views.py:44-47 | every choice gets a key, counts already present are unchanged, and new keys map to 0 |
| `Views.StatsGet` | BACKEND/core/views.py:28-55 | the body carries both counts and the guarded average; each breakdown has a key for every row and every choice, keeps the queried counts and zero-fills the rest |

## Left out

- Rendering is not modelled: the JSX, inline styles, `getPriorityClass` / `getStatusClass` and the 150-character description truncation are presentational.
- Browser I/O is not modelled: the search term's round trip through `window.location` and `history.pushState`. The search term is a plain input of the filter.
- Delays are not modelled: the 1000 ms debounce and the 1500 ms / 1000 ms simulated awaits. A pending timer is a stored snapshot, and `clearTimeout` followed by a new `setTimeout` is modelled as replacing that snapshot (`TicketForm.Form.ChangeDescription`). Classify and submit are single atomic steps. Interleavings inside an await (edits made while a submit is in flight) are not modelled.
- The disabled submit button (`disabled={isSubmitting || isClassifying}`) is not a precondition of `HandleSubmit`. Between atomic steps both flags are always down.
- `Date` parsing, `toISOString`, `toDateString` and `toLocaleString` are not modelled. A timestamp is an integer, and the calendar day is the parameter `day`.
- The OpenAI / OpenRouter client, `os.getenv`, `json.loads` and the Django ORM queries (`count`, `annotate`, `TruncDate`, `Count`) are inputs. `TicketListCreateView` and `TicketUpdateView` are framework configuration and are not modelled. `models.py`, which holds `PRIORITY_CHOICES` and `CATEGORY_CHOICES`, is not part of this model, so the choices are a parameter.
- `StatsDashboard.AvgPerDay`: returns the exact quotient; the `toFixed(1)` formatting to one decimal is not modelled.
- `Views.StatsGet`: returns the exact average; Python's `round(…, 1)` is not modelled.
- `StatsDashboard.Tally`: the accumulator is a map, so inherited keys of a plain JavaScript object (`acc["constructor"]` reads a function) are not modelled; the form only produces values from its own category and priority lists.
- `StatsDashboard.ComputeStats`: the breakdowns are maps, so the key order of the JavaScript objects (order of first appearance) is not modelled.
- `Strings.Contains`: lowercasing (`Strings.Lower`) maps ASCII letters only; Unicode case mapping in `toLowerCase` and Python's `lower` is not modelled.
- `Views.ClassifyPost`: a JSON number is a real; the model does not tell Python's int from float, and both zeros are falsy either way.

## Findings

| source | as written | input that shows it | evidently intended | confidence | as-written member | corrected member |
|---|---|---|---|---|---|---|
| CLIENT/src/components/TicketForm.jsx:15-23 | the debounce callback evaluates `!category && !priority` on the values captured in the render where the description last changed, because the effect depends on `[description]` only | type "The app crashes on start", then choose category General within the 1 s window; when the timer fires the category becomes Technical | the guard protects a category or priority the user has chosen; the callback should see the current values | not executed; high | `TicketForm.StaleGuardOverwritesChoice` | `TicketForm.Form.DebounceElapsed` |

=== FILE: app.dfy ===
/** The application root: the in-memory ticket store with its two handlers,
    and the wiring that hands the form's tickets and the list's rotations to
    the store. */
module App {
  import opened Wrappers
  import opened Tickets
  import TicketForm
  import TicketList

  const HOUR_MS := 3_600_000

  const LOGIN_TITLE := "Login page throwing 500 error"
  const LOGIN_DESCRIPTION := "Whenever I try to login with my corporate email, the page just stalls and eventually shows a 500 error. I tried clearing my cache but it did not help."
  const BILLING_TITLE := "How to update my billing address?"
  const BILLING_DESCRIPTION := "I recently moved and need to update my credit card billing address. I looked in the settings but could not find the option."
  const DARK_MODE_TITLE := "Feature request: Dark mode"
  const DARK_MODE_DESCRIPTION := "The interface is a bit bright for me at night. It would be great if there was a dark mode toggle."

  /** The three tickets the session starts with, ids 1, 2, 3 front to back,
      stamped two hours, one day and two days before `now`. */
  function Seed(now: int): (ts: seq<Ticket>)
    ensures |ts| == 3 && IdsAreOneToN(ts)
  {
    var ts := [ Ticket(1, LOGIN_TITLE, LOGIN_DESCRIPTION, "Bug Report", "High", "open", now - 2 * HOUR_MS),
                Ticket(2, BILLING_TITLE, BILLING_DESCRIPTION, "Billing", "Medium", "in_progress", now - 24 * HOUR_MS),
                Ticket(3, DARK_MODE_TITLE, DARK_MODE_DESCRIPTION, "General", "Low", "resolved", now - 48 * HOUR_MS) ];
    assert ts[0] in ts && ts[1] in ts && ts[2] in ts;
    ts
  }

  /** No two tickets share an id. */
  ghost predicate IdsUnique(ts: seq<Ticket>)
  {
    forall i, j :: 0 <= i < j < |ts| ==> ts[i].id != ts[j].id
  }

  /** The store invariant: the ids are exactly 1..n, each on one ticket. */
  ghost predicate IdsAreOneToN(ts: seq<Ticket>)
  {
    IdSet(ts) == OneTo(|ts|) && IdsUnique(ts)
  }

  /** The ids present in a list. */
  function IdSet(ts: seq<Ticket>): set<int>
  {
    set t | t in ts :: t.id
  }

  /** The ids 1..n. */
  function OneTo(n: nat): (r: set<int>)
    ensures forall k :: k in r <==> 1 <= k <= n
  {
    if n == 0 then {} else OneTo(n - 1) + {n}
  }

  /** The list after `handleTicketCreated(d)`: the draft, numbered one past
      the current length, in front of the old list. */
  function Created(ts: seq<Ticket>, d: Draft): (r: seq<Ticket>)
    ensures |r| == |ts| + 1
    ensures r[0].id == |ts| + 1 && DraftOf(r[0]) == d
    ensures r[1..] == ts
  {
    [WithId(d, |ts| + 1)] + ts
  }

  /** The list after `handleStatusChange(id, status)`: the tickets with the
      id carry the new status; order, ids and every other field are kept. */
  function StatusChanged(ts: seq<Ticket>, id: int, status: string): (r: seq<Ticket>)
    ensures |r| == |ts|
    ensures forall i :: 0 <= i < |ts| ==>
      && r[i].id == ts[i].id
      && r[i].status == (if ts[i].id == id then status else ts[i].status)
      && DraftOf(r[i]).(status := "") == DraftOf(ts[i]).(status := "")
  {
    seq(|ts|, i requires 0 <= i < |ts| => if ts[i].id == id then WithStatus(ts[i], status) else ts[i])
  }

  /** The only two things that change the store. */
  datatype Action = Create(draft: Draft) | ChangeStatus(id: int, status: string)

  /** The number of creates among the actions. */
  function CreateCount(actions: seq<Action>): nat
  {
    if actions == [] then 0
    else (if actions[0].Create? then 1 else 0) + CreateCount(actions[1..])
  }

  /** The last |ts| tickets of r carry the ids of ts, in order. */
  predicate IdsAtBack(r: seq<Ticket>, ts: seq<Ticket>)
  {
    |ts| <= |r| && forall i :: 0 <= i < |ts| ==> r[|r| - |ts| + i].id == ts[i].id
  }

  /** Ids kept at the back over two steps are kept at the back overall. */
  lemma IdsAtBackTrans(r: seq<Ticket>, m: seq<Ticket>, ts: seq<Ticket>)
    requires IdsAtBack(r, m) && IdsAtBack(m, ts)
    ensures IdsAtBack(r, ts)
  {
    forall i | 0 <= i < |ts| ensures r[|r| - |ts| + i].id == ts[i].id {
      var j := |m| - |ts| + i;
      assert m[j].id == ts[i].id;
      assert r[|r| - |m| + j].id == m[j].id;
    }
  }

  /** The list after one action: a create puts one ticket in front, a status
      change keeps the length; either way the old ids stay, at the back. */
  function Step(ts: seq<Ticket>, a: Action): (r: seq<Ticket>)
    ensures |r| == |ts| + (if a.Create? then 1 else 0)
    ensures IdsAtBack(r, ts)
  {
    match a
    case Create(d) =>
      var r := Created(ts, d);
      assert forall i :: 0 <= i < |ts| ==> r[1..][i] == ts[i];
      r
    case ChangeStatus(id, status) =>
      var r := StatusChanged(ts, id, status);
      assert forall i :: 0 <= i < |ts| ==> r[i].id == ts[i].id;
      r
  }

  /** The list after a session's actions, applied in order: one ticket more
      per create, and the starting tickets' ids stay at the back. */
  function Replay(ts: seq<Ticket>, actions: seq<Action>): (r: seq<Ticket>)
    ensures |r| == |ts| + CreateCount(actions)
    ensures IdsAtBack(r, ts)
    decreases |actions|
  {
    if actions == [] then ts
    else
      var next := Step(ts, actions[0]);
      var r := Replay(next, actions[1..]);
      IdsAtBackTrans(r, next, ts);
      r
  }

  /** The id a create hands out is larger than every id already present,
      so it collides with none of them. */
  lemma NewIdIsFresh(ts: seq<Ticket>, d: Draft)
    requires IdsAreOneToN(ts)
    ensures forall t :: t in ts ==> t.id < Created(ts, d)[0].id
  {
    forall t | t in ts ensures t.id < |ts| + 1 {
      assert t.id in IdSet(ts);
    }
  }

  /** A create keeps the ids 1..n. */
  lemma CreatedKeepsIdsOneToN(ts: seq<Ticket>, d: Draft)
    requires IdsAreOneToN(ts)
    ensures IdsAreOneToN(Created(ts, d))
  {
    var r := Created(ts, d);
    NewIdIsFresh(ts, d);
    assert r[1..] == ts;
    assert IdSet(r) == IdSet(ts) + {|ts| + 1} by {
      forall t | t in r ensures t.id in IdSet(ts) + {|ts| + 1} {
        if t != r[0] { assert t in ts; }
      }
      forall k | k in IdSet(ts) ensures k in IdSet(r) {
        var t :| t in ts && t.id == k;
        assert t in r;
      }
    }
  }

  /** The ids of a status-changed list, position by position, are the old ones. */
  lemma StatusChangedKeepsIds(ts: seq<Ticket>, id: int, status: string)
    ensures var r := StatusChanged(ts, id, status);
      |r| == |ts| && IdSet(r) == IdSet(ts) && forall i :: 0 <= i < |ts| ==> r[i].id == ts[i].id
  {
    var r := StatusChanged(ts, id, status);
    forall k | k in IdSet(ts) ensures k in IdSet(r) {
      var t :| t in ts && t.id == k;
      var i :| 0 <= i < |ts| && ts[i] == t;
      assert r[i] in r;
    }
    forall k | k in IdSet(r) ensures k in IdSet(ts) {
      var t :| t in r && t.id == k;
      var i :| 0 <= i < |r| && r[i] == t;
      assert ts[i] in ts;
    }
  }

  /** A status change keeps the ids 1..n. */
  lemma StatusChangedKeepsIdsOneToN(ts: seq<Ticket>, id: int, status: string)
    requires IdsAreOneToN(ts)
    ensures IdsAreOneToN(StatusChanged(ts, id, status))
  {
    StatusChangedKeepsIds(ts, id, status);
  }

  /** A status change for an id that is not present changes nothing. */
  lemma StatusChangeOfUnknownId(ts: seq<Ticket>, id: int, status: string)
    requires id !in IdSet(ts)
    ensures StatusChanged(ts, id, status) == ts
  {
    forall i | 0 <= i < |ts| ensures ts[i].id != id {
      assert ts[i] in ts;
    }
  }

  /** Of two status changes to the same id, the later one wins. */
  lemma StatusChangeLastWins(ts: seq<Ticket>, id: int, first: string, second: string)
    ensures StatusChanged(StatusChanged(ts, id, first), id, second) == StatusChanged(ts, id, second)
  {
  }

  /** Either action keeps the ids 1..n. */
  lemma StepKeepsIdsOneToN(ts: seq<Ticket>, a: Action)
    requires IdsAreOneToN(ts)
    ensures IdsAreOneToN(Step(ts, a))
  {
    match a
    case Create(d) => CreatedKeepsIdsOneToN(ts, d);
    case ChangeStatus(id, status) => StatusChangedKeepsIdsOneToN(ts, id, status);
  }

  /** Any session keeps the ids 1..n once they hold. */
  lemma {:induction false} ReplayKeepsIdsOneToN(ts: seq<Ticket>, actions: seq<Action>)
    requires IdsAreOneToN(ts)
    ensures IdsAreOneToN(Replay(ts, actions))
    decreases |actions|
  {
    if actions != [] {
      StepKeepsIdsOneToN(ts, actions[0]);
      ReplayKeepsIdsOneToN(Step(ts, actions[0]), actions[1..]);
    }
  }

  /** The session-level id invariant: from the seed, whatever the user does,
      the ids are exactly {1..|tickets|} and no two tickets share one. */
  lemma SessionIdsAreOneToN(now: int, actions: seq<Action>)
    ensures var ts := Replay(Seed(now), actions);
      IdSet(ts) == OneTo(|ts|) && IdsUnique(ts)
  {
    ReplayKeepsIdsOneToN(Seed(now), actions);
  }

  /** The `tickets` state of the App component. */
  class Store {
    var tickets: seq<Ticket>

    /** The store's invariant: the ids are 1..n, each once. */
    ghost predicate Valid()
      reads this
    {
      IdsAreOneToN(tickets)
    }

    /** The initial `useState` value. */
    constructor (now: int)
      ensures tickets == Seed(now) && Valid()
    {
      tickets := Seed(now);
    }

    /** `handleTicketCreated`: the draft gets id `tickets.length + 1` and goes
        to the front; the previous list is the tail. */
    method HandleTicketCreated(d: Draft)
      modifies this
      ensures |tickets| == |old(tickets)| + 1
      ensures tickets[0].id == |old(tickets)| + 1 && DraftOf(tickets[0]) == d
      ensures tickets[1..] == old(tickets)
      ensures tickets == Created(old(tickets), d)
      ensures old(Valid()) ==> Valid()
    {
      if Valid() { CreatedKeepsIdsOneToN(tickets, d); }
      var ticketWithId := WithId(d, |tickets| + 1);
      tickets := [ticketWithId] + tickets;
    }

    /** `handleStatusChange`: every ticket with the id gets the new status;
        order, length and every other field stay as they were. */
    method HandleStatusChange(id: int, status: string)
      modifies this
      ensures |tickets| == |old(tickets)|
      ensures forall i :: 0 <= i < |tickets| ==>
        && tickets[i].id == old(tickets)[i].id
        && tickets[i].status == (if old(tickets)[i].id == id then status else old(tickets)[i].status)
        && DraftOf(tickets[i]).(status := "") == DraftOf(old(tickets)[i]).(status := "")
      ensures tickets == StatusChanged(old(tickets), id, status)
      ensures old(Valid()) ==> Valid()
    {
      StatusChangedKeepsIds(tickets, id, status);
      tickets := StatusChanged(tickets, id, status);
    }
  }

  /** `<TicketForm onTicketCreated={handleTicketCreated} />`: a submit that
      emits a ticket creates it in the store; one that does not leaves the
      store alone. */
  method SubmitForm(store: Store, form: TicketForm.Form, now: int, fails: bool)
    modifies store, form
    ensures var emitted := TicketForm.SubmitOutcome(old(form.title), old(form.description),
                                                    old(form.category), old(form.priority), now, fails);
      && store.tickets == (if emitted.Some? then Created(old(store.tickets), emitted.value) else old(store.tickets))
      && (emitted.Some? ==> form.title == "" && form.description == "" && form.category == "" && form.priority == "")
      && (emitted.None? ==>
            && form.title == old(form.title) && form.description == old(form.description)
            && form.category == old(form.category) && form.priority == old(form.priority))
    ensures form.isClassifying == old(form.isClassifying)
    ensures TicketForm.SubmitGuard(old(form.title), old(form.description), old(form.category), old(form.priority)) ==>
      !form.isSubmitting
    ensures old(store.Valid()) ==> store.Valid()
  {
    var emitted := form.HandleSubmit(now, fails);
    if emitted.Some? {
      store.HandleTicketCreated(emitted.value);
    }
  }

  /** `<TicketList onStatusChange={handleStatusChange} />`: clicking a ticket
      rotates its status in the store. */
  method RotateTicket(store: Store, t: Ticket)
    modifies store
    ensures store.tickets == StatusChanged(old(store.tickets), t.id, TicketList.NextStatus(t.status))
    ensures old(store.Valid()) ==> store.Valid()
  {
    var (id, status) := TicketList.RotationRequest(t);
    store.HandleStatusChange(id, status);
  }
}

=== FILE: stats_dashboard.dfy ===
/** The statistics cards: counts derived from the whole ticket list. The
    calendar day of a timestamp depends on the browser's time zone, so it is
    a parameter `day`. */
module StatsDashboard {
  import opened Tickets

  /** The two fields the breakdowns group by. */
  datatype Field = PriorityField | CategoryField

  function KeyOf(t: Ticket, f: Field): string
  {
    match f
    case PriorityField => t.priority
    case CategoryField => t.category
  }

  /** `tickets.filter(t => t.status === 'open').length`. */
  function OpenCount(ts: seq<Ticket>): (n: nat)
    ensures n <= |ts|
    ensures n == 0 <==> forall i :: 0 <= i < |ts| ==> ts[i].status != "open"
    ensures n == |ts| <==> forall i :: 0 <= i < |ts| ==> ts[i].status == "open"
  {
    if ts == [] then 0
    else
      var rest := OpenCount(ts[1..]);
      assert forall i :: 1 <= i < |ts| ==> ts[i] == ts[1..][i - 1];
      (if ts[0].status == "open" then 1 else 0) + rest
  }

  /** `new Set(dates)`: the distinct days the tickets fall on. */
  function DaySet(ts: seq<Ticket>, day: int -> int): (r: set<int>)
    ensures forall t :: t in ts ==> day(t.timestamp) in r
    ensures forall d :: d in r ==> exists t :: t in ts && day(t.timestamp) == d
    ensures |r| <= |ts|
    ensures ts != [] ==> |r| >= 1
  {
    if ts == [] then {}
    else
      var rest := DaySet(ts[1..], day);
      assert forall t :: t in ts ==> t == ts[0] || t in ts[1..];
      {day(ts[0].timestamp)} + rest
  }

  /** `[...new Set(dates)].length || 1`: the number of distinct days, or 1
      for an empty list. */
  function UniqueDates(ts: seq<Ticket>, day: int -> int): (n: nat)
    ensures n >= 1
    ensures ts == [] ==> n == 1
    ensures ts != [] ==> n == |DaySet(ts, day)| && n <= |ts|
  {
    var distinct := |DaySet(ts, day)|;
    if distinct == 0 then 1 else distinct
  }

  /** `total / uniqueDates`, before the one-decimal formatting. */
  function AvgPerDay(ts: seq<Ticket>, day: int -> int): (avg: real)
    ensures ts == [] ==> avg == 0.0
    ensures ts != [] ==> 1.0 <= avg <= |ts| as real
    ensures ts != [] && |DaySet(ts, day)| == 1 ==> avg == |ts| as real
  {
    var days := UniqueDates(ts, day);
    if ts != [] then
      QuotientBounds(|ts| as real, days as real);
      |ts| as real / days as real
    else
      0.0 / days as real
  }

  /** A total divided by a count of days between 1 and the total lies
      between 1 and the total. */
  lemma QuotientBounds(total: real, days: real)
    requires 1.0 <= days <= total
    ensures 1.0 <= total / days <= total
  {
    var q := total / days;
    assert q * days == total;
  }

  /** How many tickets have value k in field f. */
  function Occurrences(ts: seq<Ticket>, f: Field, k: string): nat
  {
    if ts == [] then 0
    else (if KeyOf(ts[0], f) == k then 1 else 0) + Occurrences(ts[1..], f, k)
  }

  /** The values field f takes in the list. */
  function Values(ts: seq<Ticket>, f: Field): set<string>
  {
    set t | t in ts :: KeyOf(t, f)
  }

  /** `acc[k]`, where a missing key reads as 0 (`acc[k] || 0`). */
  function Get(m: map<string, nat>, k: string): nat
  {
    if k in m then m[k] else 0
  }

  /** One step of the reduce: `acc[k] = (acc[k] || 0) + 1`; key k is added
      if missing and counts one more, every other key is kept. */
  function Bump(m: map<string, nat>, k: string): (r: map<string, nat>)
    ensures r.Keys == m.Keys + {k}
    ensures r[k] == Get(m, k) + 1
    ensures forall j :: j in m && j != k ==> r[j] == m[j]
  {
    m[k := Get(m, k) + 1]
  }

  /** `tickets.reduce(step, acc)` over field f. */
  function Tally(acc: map<string, nat>, ts: seq<Ticket>, f: Field): map<string, nat>
    decreases |ts|
  {
    if ts == [] then acc else Tally(Bump(acc, KeyOf(ts[0], f)), ts[1..], f)
  }

  /** The sum of the counts in a breakdown. */
  ghost function MapSum(m: map<string, nat>): nat
    decreases |m|
  {
    if m == map[] then 0
    else
      var k :| k in m;
      assert |m.Keys - {k}| < |m.Keys|;
      m[k] + MapSum(m - {k})
  }

  /** The sum does not depend on which key is taken out first. */
  lemma {:induction false} MapSumRemove(m: map<string, nat>, k: string)
    requires k in m
    ensures MapSum(m) == m[k] + MapSum(m - {k})
    decreases |m|
  {
    var j :| j in m && MapSum(m) == m[j] + MapSum(m - {j});
    if j != k {
      assert |(m - {j}).Keys| < |m.Keys|;
      assert |(m - {k}).Keys| < |m.Keys|;
      MapSumRemove(m - {j}, k);
      MapSumRemove(m - {k}, j);
      assert m - {j} - {k} == m - {k} - {j};
    }
  }

  /** One reduce step adds one to the sum. */
  lemma BumpSum(m: map<string, nat>, k: string)
    ensures MapSum(Bump(m, k)) == MapSum(m) + 1
  {
    var b := Bump(m, k);
    MapSumRemove(b, k);
    assert b - {k} == m - {k};
    if k in m {
      MapSumRemove(m, k);
    } else {
      assert m - {k} == m;
    }
  }

  /** The values field f takes are the first ticket's and the rest's. */
  lemma ValuesCons(ts: seq<Ticket>, f: Field)
    requires ts != []
    ensures Values(ts, f) == {KeyOf(ts[0], f)} + Values(ts[1..], f)
  {
    assert forall t :: t in ts <==> t == ts[0] || t in ts[1..];
  }

  /** The reduce's keys: those of the accumulator and those seen. */
  lemma {:induction false} TallyKeys(acc: map<string, nat>, ts: seq<Ticket>, f: Field)
    ensures Tally(acc, ts, f).Keys == acc.Keys + Values(ts, f)
    decreases |ts|
  {
    if ts != [] {
      TallyKeys(Bump(acc, KeyOf(ts[0], f)), ts[1..], f);
      ValuesCons(ts, f);
    }
  }

  /** The reduce's counts: each raised by the key's occurrences. */
  lemma {:induction false} TallyCounts(acc: map<string, nat>, ts: seq<Ticket>, f: Field, k: string)
    ensures Get(Tally(acc, ts, f), k) == Get(acc, k) + Occurrences(ts, f, k)
    decreases |ts|
  {
    if ts != [] {
      TallyCounts(Bump(acc, KeyOf(ts[0], f)), ts[1..], f, k);
    }
  }

  /** The reduce's sum: raised by the number of tickets. */
  lemma {:induction false} TallySum(acc: map<string, nat>, ts: seq<Ticket>, f: Field)
    ensures MapSum(Tally(acc, ts, f)) == MapSum(acc) + |ts|
    decreases |ts|
  {
    if ts != [] {
      TallySum(Bump(acc, KeyOf(ts[0], f)), ts[1..], f);
      BumpSum(acc, KeyOf(ts[0], f));
    }
  }

  /** A ticket's value occurs at least once. */
  lemma {:induction false} OccursOfValue(ts: seq<Ticket>, f: Field, k: string)
    requires k in Values(ts, f)
    ensures Occurrences(ts, f, k) >= 1
  {
    if KeyOf(ts[0], f) != k {
      var t :| t in ts && KeyOf(t, f) == k;
      assert t in ts[1..];
      OccursOfValue(ts[1..], f, k);
    }
  }

  /** A breakdown: count by value, starting from `{}`. */
  function Breakdown(ts: seq<Ticket>, f: Field): map<string, nat>
  {
    Tally(map[], ts, f)
  }

  /** The breakdown's keys are exactly the values that occur, each with its
      number of tickets (so at least 1), and the counts add up to the total. */
  lemma BreakdownSpec(ts: seq<Ticket>, f: Field)
    ensures Breakdown(ts, f).Keys == Values(ts, f)
    ensures forall k :: k in Breakdown(ts, f) ==> Breakdown(ts, f)[k] == Occurrences(ts, f, k) >= 1
    ensures MapSum(Breakdown(ts, f)) == |ts|
  {
    TallyKeys(map[], ts, f);
    TallySum(map[], ts, f);
    assert MapSum(map[]) == 0;
    forall k | k in Breakdown(ts, f) ensures Breakdown(ts, f)[k] == Occurrences(ts, f, k) >= 1 {
      TallyCounts(map[], ts, f, k);
      OccursOfValue(ts, f, k);
    }
  }

  /** The dashboard's numbers. */
  datatype Stats = Stats(
    total: nat,
    open: nat,
    avgPerDay: real,
    priorityBreakdown: map<string, nat>,
    categoryBreakdown: map<string, nat>)

  /** The `stats` memo. */
  function ComputeStats(ts: seq<Ticket>, day: int -> int): (s: Stats)
    ensures s.total == |ts| && s.open <= s.total
    ensures s.open == OpenCount(ts) && s.avgPerDay == AvgPerDay(ts, day)
    ensures s.priorityBreakdown.Keys == Values(ts, PriorityField)
    ensures s.categoryBreakdown.Keys == Values(ts, CategoryField)
    ensures forall k :: k in s.priorityBreakdown ==> s.priorityBreakdown[k] == Occurrences(ts, PriorityField, k)
    ensures forall k :: k in s.categoryBreakdown ==> s.categoryBreakdown[k] == Occurrences(ts, CategoryField, k)
    ensures MapSum(s.priorityBreakdown) == s.total && MapSum(s.categoryBreakdown) == s.total
    ensures ts == [] ==> s.avgPerDay == 0.0
  {
    BreakdownSpec(ts, PriorityField);
    BreakdownSpec(ts, CategoryField);
    Stats(|ts|, OpenCount(ts), AvgPerDay(ts, day),
          Breakdown(ts, PriorityField), Breakdown(ts, CategoryField))
  }

  /** Three tickets, one per status, all on one day: total 3, one open, 3.0
      per day. */
  lemma OneOfEachStatusOnOneDay(ts: seq<Ticket>, day: int -> int)
    requires |ts| == 3
    requires ts[0].status == "open" && ts[1].status == "in_progress" && ts[2].status == "resolved"
    requires day(ts[0].timestamp) == day(ts[1].timestamp) == day(ts[2].timestamp)
    ensures ComputeStats(ts, day).total == 3
    ensures ComputeStats(ts, day).open == 1
    ensures ComputeStats(ts, day).avgPerDay == 3.0
  {
    assert ts[1..][1..][1..] == [];
    assert OpenCount(ts[1..][1..]) == 0;
    assert OpenCount(ts[1..]) == 0;
    var d := day(ts[0].timestamp);
    assert DaySet(ts[1..][1..], day) == {d};
    assert DaySet(ts[1..], day) == {d};
    assert DaySet(ts, day) == {d};
  }
}

=== FILE: strings.dfy ===
/** The string built-ins the ticket code relies on, over `seq<char>`:
    JavaScript `toLowerCase` / `includes` and Python `lower`, `startswith`,
    `replace(old, "")` and `strip`. Case mapping covers ASCII letters only. */
module Strings {

  /** Maps 'A'..'Z' to 'a'..'z' and leaves every other character alone. */
  function LowerChar(c: char): char
  {
    if 'A' <= c <= 'Z' then (c as int + 32) as char else c
  }

  /** `s.toLowerCase()` / `s.lower()`, one character at a time. */
  function Lower(s: string): (r: string)
    ensures |r| == |s|
    ensures forall i :: 0 <= i < |s| ==> r[i] == LowerChar(s[i])
  {
    seq(|s|, i requires 0 <= i < |s| => LowerChar(s[i]))
  }

  /** Lowercasing twice is lowercasing once. */
  lemma LowerIdempotent(s: string)
    ensures Lower(Lower(s)) == Lower(s)
  {
    assert forall i :: 0 <= i < |s| ==> LowerChar(LowerChar(s[i])) == LowerChar(s[i]);
  }

  /** JavaScript `s.length`: UTF-16 code units, two for a character outside
      the Basic Multilingual Plane. */
  function Utf16Length(s: string): (n: nat)
    ensures |s| <= n <= 2 * |s|
    ensures (forall i :: 0 <= i < |s| ==> s[i] as int < 0x1_0000) ==> n == |s|
  {
    if s == [] then 0
    else (if s[0] as int < 0x1_0000 then 1 else 2) + Utf16Length(s[1..])
  }

  /** A character counts one code unit in the Basic Multilingual Plane and
      two (a surrogate pair) above it. */
  lemma Utf16LengthChar(c: char)
    ensures Utf16Length([c]) == if c as int < 0x1_0000 then 1 else 2
  {
    assert [c][1..] == [];
  }

  /** The code-unit length of a concatenation is the sum of the lengths. */
  lemma {:induction false} Utf16LengthConcat(a: string, b: string)
    ensures Utf16Length(a + b) == Utf16Length(a) + Utf16Length(b)
  {
    if a != [] {
      assert (a + b)[0] == a[0] && (a + b)[1..] == a[1..] + b;
      Utf16LengthConcat(a[1..], b);
    } else {
      assert a + b == b;
    }
  }

  /** `s.startswith(p)`. */
  predicate StartsWith(s: string, p: string)
  {
    |p| <= |s| && s[..|p|] == p
  }

  /** The window of s starting at i spells p. */
  predicate OccursAt(s: string, p: string, i: int)
  {
    0 <= i <= |s| - |p| && s[i..i + |p|] == p
  }

  /** Reference meaning of "p occurs in s": some window of s equals p. */
  ghost predicate HasSubstring(s: string, p: string)
  {
    exists i :: OccursAt(s, p, i)
  }

  /** A window of s past its first character is a window of s[1..]. */
  lemma OccursAtShift(s: string, p: string, i: int)
    requires 0 < i && 0 < |s|
    ensures OccursAt(s, p, i) <==> OccursAt(s[1..], p, i - 1)
  {
    if i <= |s| - |p| {
      var inner, outer := s[1..][i - 1..i - 1 + |p|], s[i..i + |p|];
      assert forall k :: 0 <= k < |p| ==> inner[k] == outer[k];
      assert inner == outer;
    }
  }

  /** `s.includes(p)` / `p in s`, by scanning the suffixes of s. */
  function Contains(s: string, p: string): (r: bool)
    ensures r <==> HasSubstring(s, p)
  {
    if StartsWith(s, p) then
      assert OccursAt(s, p, 0);
      true
    else if |s| == 0 then
      false
    else
      var r := Contains(s[1..], p);
      if r then
        var i :| OccursAt(s[1..], p, i);
        OccursAtShift(s, p, i + 1);
        true
      else
        assert !HasSubstring(s, p) by {
          forall i | 0 < i ensures !OccursAt(s, p, i) {
            OccursAtShift(s, p, i);
          }
        }
        false
  }

  /** Every string contains the empty string. */
  lemma ContainsEmpty(s: string)
    ensures Contains(s, "")
  {
  }

  /** An occurrence inside a slice is an occurrence in the whole string. */
  lemma HasSubstringOfSlice(s: string, lo: nat, hi: nat, p: string)
    requires lo <= hi <= |s|
    requires HasSubstring(s[lo..hi], p)
    ensures HasSubstring(s, p)
  {
    var i :| OccursAt(s[lo..hi], p, i);
    var outer, inner := s[lo + i..lo + i + |p|], s[lo..hi][i..i + |p|];
    assert forall k :: 0 <= k < |p| ==> outer[k] == inner[k];
    assert OccursAt(s, p, lo + i);
  }

  /** A string holding a needle holds every prefix of it; so a string
      without p has no longer needle that starts with p. */
  lemma LongerNeedleAbsent(s: string, p: string, q: string)
    ensures StartsWith(q, p) && Contains(s, q) ==> Contains(s, p)
  {
    if StartsWith(q, p) && Contains(s, q) {
      var i :| OccursAt(s, q, i);
      assert s[i..i + |p|] == s[i..i + |q|][..|p|];
      assert OccursAt(s, p, i);
    }
  }

  /** Python `s.replace(p, "")` for a non-empty p: occurrences are removed
      left to right without overlapping. */
  function RemoveAll(s: string, p: string): (r: string)
    requires |p| > 0
    ensures |r| <= |s|
  {
    if StartsWith(s, p) then RemoveAll(s[|p|..], p)
    else if |s| == 0 then s
    else [s[0]] + RemoveAll(s[1..], p)
  }

  /** A string that does not contain p is left as it is. */
  lemma {:induction false} RemoveAllAbsent(s: string, p: string)
    requires |p| > 0 && !Contains(s, p)
    ensures RemoveAll(s, p) == s
  {
    if |s| > 0 {
      RemoveAllAbsent(s[1..], p);
      assert [s[0]] + s[1..] == s;
    }
  }

  /** An occurrence of p at the front is removed and scanning goes on
      after it. */
  lemma RemoveAllLeading(p: string, s: string)
    requires |p| > 0
    ensures RemoveAll(p + s, p) == RemoveAll(s, p)
  {
    assert (p + s)[..|p|] == p && (p + s)[|p|..] == s;
  }

  /** A prefix holding no character that opens p passes through the
      removal untouched. */
  lemma {:induction false} RemoveAllSkipsPlain(x: string, y: string, p: string)
    requires |p| > 0
    requires forall i :: 0 <= i < |x| ==> x[i] != p[0]
    ensures RemoveAll(x + y, p) == x + RemoveAll(y, p)
  {
    if x == [] {
      assert x + y == y;
    } else {
      var s := x + y;
      assert s[0] == x[0] && s[0] != p[0];
      assert !StartsWith(s, p) by {
        assert |p| <= |s| ==> s[..|p|][0] == s[0];
      }
      assert s[1..] == x[1..] + y;
      assert RemoveAll(s, p) == [s[0]] + RemoveAll(s[1..], p);
      RemoveAllSkipsPlain(x[1..], y, p);
    }
  }

  /** The number of backticks that open s. */
  function LeadingTicks(s: string): nat
  {
    if |s| > 0 && s[0] == '`' then 1 + LeadingTicks(s[1..]) else 0
  }

  /** Removing the fence "```" shortens the opening run of backticks to its
      length modulo 3. */
  lemma {:induction false} RemoveFenceLeadingTicks(s: string)
    ensures LeadingTicks(RemoveAll(s, "```")) == LeadingTicks(s) % 3
  {
    if StartsWith(s, "```") {
      RemoveFenceLeadingTicks(s[3..]);
      assert LeadingTicks(s) == 3 + LeadingTicks(s[3..]) by {
        assert s[0] == '`' && s[1..][0] == '`' && s[1..][1..][0] == '`';
        assert s[1..][1..][1..] == s[3..];
      }
    } else if |s| == 0 {
    } else if s[0] != '`' {
    } else {
      RemoveFenceLeadingTicks(s[1..]);
    }
  }

  /** Python's `"``` ...".replace("```", "")` leaves no fence behind. */
  lemma {:induction false} RemoveFenceLeavesNoFence(s: string)
    ensures !Contains(RemoveAll(s, "```"), "```")
  {
    var r := RemoveAll(s, "```");
    if StartsWith(s, "```") {
      RemoveFenceLeavesNoFence(s[3..]);
    } else if |s| == 0 {
    } else {
      RemoveFenceLeavesNoFence(s[1..]);
      RemoveFenceLeadingTicks(s);
      assert r[1..] == RemoveAll(s[1..], "```");
    }
  }

  /** The characters Python's argument-less `strip()` removes: those for
      which `str.isspace()` holds. */
  predicate IsSpace(c: char)
  {
    || c == ' ' || c == '\t' || c == '\n' || c == '\r' || c == '\U{B}' || c == '\U{C}'
    || '\U{1C}' <= c <= '\U{1F}'
    || c == '\U{85}' || c == '\U{A0}' || c == '\U{1680}'
    || '\U{2000}' <= c <= '\U{200A}'
    || c == '\U{2028}' || c == '\U{2029}' || c == '\U{202F}' || c == '\U{205F}' || c == '\U{3000}'
  }

  /** The number of leading characters of s in the strip set. */
  function LeadingIn(s: string, strip: char -> bool): (n: nat)
    ensures n <= |s|
    ensures forall i :: 0 <= i < n ==> strip(s[i])
    ensures n < |s| ==> !strip(s[n])
  {
    if |s| > 0 && strip(s[0]) then 1 + LeadingIn(s[1..], strip) else 0
  }

  /** The number of trailing characters of s in the strip set. */
  function TrailingIn(s: string, strip: char -> bool): (n: nat)
    ensures n <= |s|
    ensures forall i :: |s| - n <= i < |s| ==> strip(s[i])
    ensures n < |s| ==> !strip(s[|s| - n - 1])
  {
    if |s| > 0 && strip(s[|s| - 1]) then 1 + TrailingIn(s[..|s| - 1], strip) else 0
  }

  /** r is a contiguous piece of s. */
  ghost predicate IsSliceOf(r: string, s: string)
  {
    exists lo, hi :: 0 <= lo <= hi <= |s| && r == s[lo..hi]
  }

  /** A piece of a piece of s is a piece of s. */
  lemma SliceOfSlice(r: string, m: string, s: string)
    requires IsSliceOf(r, m) && IsSliceOf(m, s)
    ensures IsSliceOf(r, s)
  {
    var lo, hi :| 0 <= lo <= hi <= |s| && m == s[lo..hi];
    var lo', hi' :| 0 <= lo' <= hi' <= |m| && r == m[lo'..hi'];
    var w := s[lo + lo'..lo + hi'];
    assert forall k :: 0 <= k < |r| ==> r[k] == w[k];
    assert r == w;
  }

  /** A piece of s contains p only if s does. */
  lemma SliceKeepsAbsence(r: string, s: string, p: string)
    requires IsSliceOf(r, s) && !Contains(s, p)
    ensures !Contains(r, p)
  {
    var lo, hi :| 0 <= lo <= hi <= |s| && r == s[lo..hi];
    if Contains(r, p) {
      HasSubstringOfSlice(s, lo, hi, p);
    }
  }

  /** r is s with some characters of the strip set cut from each end. */
  ghost predicate TrimmedOf(r: string, s: string, strip: char -> bool)
  {
    exists lo, hi ::
      && 0 <= lo <= hi <= |s| && r == s[lo..hi]
      && (forall i :: 0 <= i < lo ==> strip(s[i]))
      && (forall i :: hi <= i < |s| ==> strip(s[i]))
  }

  /** Python `s.strip(chars)`: the longest slice of s that neither starts nor
      ends with a character of the strip set. */
  function StripBy(s: string, strip: char -> bool): (r: string)
    ensures IsSliceOf(r, s) && TrimmedOf(r, s, strip)
    ensures |r| > 0 ==> !strip(r[0]) && !strip(r[|r| - 1])
    ensures |r| == 0 ==> forall i :: 0 <= i < |s| ==> strip(s[i])
  {
    var lo := LeadingIn(s, strip);
    if lo == |s| then
      assert s[|s|..|s|] == [];
      []
    else
      var hi := |s| - TrailingIn(s[lo..], strip);
      assert s[lo..][|s[lo..]| - 1] == s[|s| - 1];
      assert forall i :: hi <= i < |s| ==> s[i] == s[lo..][i - lo];
      s[lo..hi]
  }

  /** A string that neither starts nor ends with a stripped character is its
      own strip. */
  lemma StripByKeeps(s: string, strip: char -> bool)
    requires |s| > 0 && !strip(s[0]) && !strip(s[|s| - 1])
    ensures StripBy(s, strip) == s
  {
    assert LeadingIn(s, strip) == 0;
    assert s[0..] == s;
    assert TrailingIn(s, strip) == 0;
    assert s[0..|s|] == s;
  }

  /** A string made of stripped characters only strips to nothing. */
  lemma StripByAll(s: string, strip: char -> bool)
    requires forall i :: 0 <= i < |s| ==> strip(s[i])
    ensures StripBy(s, strip) == []
  {
    assert LeadingIn(s, strip) == |s|;
  }

  /** Padding of stripped characters around a string that neither starts nor
      ends with one is exactly what the strip removes. */
  lemma StripByPadded(pre: string, x: string, post: string, strip: char -> bool)
    requires forall i :: 0 <= i < |pre| ==> strip(pre[i])
    requires forall i :: 0 <= i < |post| ==> strip(post[i])
    requires |x| > 0 && !strip(x[0]) && !strip(x[|x| - 1])
    ensures StripBy(pre + x + post, strip) == x
  {
    var s := pre + x + post;
    assert forall i :: 0 <= i < |pre| ==> s[i] == pre[i];
    assert s[|pre|] == x[0];
    assert LeadingIn(s, strip) == |pre|;
    var t := s[|pre|..];
    assert t == x + post;
    assert forall i :: |x| <= i < |t| ==> t[i] == post[i - |x|];
    assert t[|x| - 1] == x[|x| - 1];
    assert TrailingIn(t, strip) == |post|;
    assert s[|pre|..|s| - |post|] == x;
  }

  /** Python `s.strip()`: whitespace is cut from both ends and nowhere else. */
  function Strip(s: string): (r: string)
    ensures TrimmedOf(r, s, IsSpace)
    ensures |r| > 0 ==> !IsSpace(r[0]) && !IsSpace(r[|r| - 1])
    ensures |r| == 0 ==> forall i :: 0 <= i < |s| ==> IsSpace(s[i])
  {
    StripBy(s, IsSpace)
  }
}

=== FILE: ticket_form.dfy ===
/** The ticket creation form: six pieces of component state, the mocked
    keyword classifier, the debounce guard that decides when it runs, and the
    submit handler. The timers and awaits are collapsed into atomic steps; the
    outcome of each awaited call is a `fails` parameter. */
module TicketForm {
  import opened Wrappers
  import opened Strings
  import opened Tickets

  const CATEGORIES: seq<string> := ["Technical", "Billing", "General", "Bug Report"]
  const PRIORITIES: seq<string> := ["Low", "Medium", "High"]

  /** The lowercased description mentions the (lowercase) word. */
  ghost predicate Mentions(desc: string, word: string)
  {
    HasSubstring(Lower(desc), word)
  }

  /** The suggested category: Billing for money talk, else Bug Report for
      breakage, else Technical. */
  function SuggestCategory(desc: string): (r: string)
    ensures r in CATEGORIES && r != "General"
    ensures r == "Billing" <==> Mentions(desc, "money") || Mentions(desc, "payment")
    ensures r == "Bug Report" <==>
      && !(Mentions(desc, "money") || Mentions(desc, "payment"))
      && (Mentions(desc, "break") || Mentions(desc, "error"))
    ensures r == "Technical" <==>
      !(Mentions(desc, "money") || Mentions(desc, "payment") || Mentions(desc, "break") || Mentions(desc, "error"))
  {
    var lower := Lower(desc);
    if Contains(lower, "money") || Contains(lower, "payment") then "Billing"
    else if Contains(lower, "break") || Contains(lower, "error") then "Bug Report"
    else "Technical"
  }

  /** The suggested priority: High for long or urgent descriptions, else
      Medium. */
  function SuggestPriority(desc: string): (r: string)
    ensures r in PRIORITIES && r != "Low"
    ensures r == "High" <==> Utf16Length(desc) > 100 || Mentions(desc, "urgent")
    ensures r == "Medium" <==> Utf16Length(desc) <= 100 && !Mentions(desc, "urgent")
  {
    if Utf16Length(desc) > 100 || Contains(Lower(desc), "urgent") then "High" else "Medium"
  }

  /** "payment failed, please help urgent" is a Billing ticket (the money
      check comes first) of High priority (it is urgent). */
  lemma UrgentPaymentScenario()
    ensures SuggestCategory("payment failed, please help urgent") == "Billing"
    ensures SuggestPriority("payment failed, please help urgent") == "High"
  {
    var lower := Lower("payment failed, please help urgent");
    assert lower[0..7] == "payment";
    assert OccursAt(lower, "payment", 0);
    assert lower[28..34] == "urgent";
    assert OccursAt(lower, "urgent", 28);
  }

  /** When the debounce timer fires, classification runs only for a
      description longer than 10 UTF-16 code units with neither category nor
      priority chosen. */
  predicate AutoClassifyGuard(description: string, category: string, priority: string)
  {
    Utf16Length(description) > 10 && category == "" && priority == ""
  }

  /** Six emoji are twelve UTF-16 code units, enough to trigger the
      classifier. */
  lemma SixEmojiPassGuard()
    ensures AutoClassifyGuard("\U{1F600}\U{1F600}\U{1F600}\U{1F600}\U{1F600}\U{1F600}", "", "")
  {
    var e := "\U{1F600}\U{1F600}\U{1F600}\U{1F600}\U{1F600}\U{1F600}";
    assert e[1..][1..][1..][1..][1..][1..] == [];
  }

  /** A submit goes ahead only when all four fields are non-empty. */
  predicate SubmitGuard(title: string, description: string, category: string, priority: string)
  {
    title != "" && description != "" && category != "" && priority != ""
  }

  /** The ticket a submit hands to `onTicketCreated`, if any. */
  function SubmitOutcome(title: string, description: string, category: string, priority: string,
                         now: int, fails: bool): (r: Option<Draft>)
    ensures r.Some? <==> SubmitGuard(title, description, category, priority) && !fails
    ensures r.Some? ==> r.value.status == "open" && r.value.timestamp == now
    ensures r.Some? ==> r.value.title == title && r.value.description == description
    ensures r.Some? ==> r.value.category == category && r.value.priority == priority
  {
    if !SubmitGuard(title, description, category, priority) || fails then None
    else Some(Draft(title, description, category, priority, "open", now))
  }

  /** What the armed debounce callback closed over: the state of the render
      in which the description last changed. */
  datatype Snapshot = Snapshot(description: string, category: string, priority: string)

  /** The TicketForm component's state. */
  class Form {
    var title: string
    var description: string
    var category: string
    var priority: string
    var isClassifying: bool
    var isSubmitting: bool
    /** The pending debounce timer, if one is armed. */
    var timer: Option<Snapshot>

    /** The first render: empty fields, no call in flight; the effect arms a
        timer for the empty description. */
    constructor ()
      ensures title == "" && description == "" && category == "" && priority == ""
      ensures !isClassifying && !isSubmitting
      ensures timer == Some(Snapshot("", "", ""))
    {
      title, description, category, priority := "", "", "", "";
      isClassifying, isSubmitting := false, false;
      timer := Some(Snapshot("", "", ""));
    }

    /** Typing in the title field. */
    method ChangeTitle(v: string)
      modifies this`title
      ensures title == v
    {
      title := v;
    }

    /** Typing in the description field: the effect cancels the pending timer
        and arms a new one over the current state. */
    method ChangeDescription(v: string)
      modifies this`description, this`timer
      ensures description == v
      ensures timer == Some(Snapshot(v, category, priority))
    {
      description := v;
      timer := Some(Snapshot(v, category, priority));
    }

    /** Choosing a category. The timer is not re-armed: its effect depends on
        the description only. */
    method ChangeCategory(v: string)
      modifies this`category
      ensures category == v
    {
      category := v;
    }

    /** Choosing a priority; as for the category, the timer is left alone. */
    method ChangePriority(v: string)
      modifies this`priority
      ensures priority == v
    {
      priority := v;
    }

    /** `classifyDescription`: raise the spinner, write the suggestions unless
        the call fails, lower the spinner either way. */
    method ClassifyDescription(desc: string, fails: bool)
      modifies this`category, this`priority, this`isClassifying
      ensures !isClassifying
      ensures !fails ==> category == SuggestCategory(desc) && priority == SuggestPriority(desc)
      ensures fails ==> category == old(category) && priority == old(priority)
    {
      isClassifying := true;
      if !fails {
        var suggestedCategory := SuggestCategory(desc);
        var suggestedPriority := SuggestPriority(desc);
        category := suggestedCategory;
        priority := suggestedPriority;
      }
      isClassifying := false;
    }

    /** The debounce timer firing as the source has it: the guard reads the
        category and priority the callback closed over, not the current ones. */
    method DebounceElapsedAsWritten(fails: bool)
      modifies this`category, this`priority, this`isClassifying, this`timer
      ensures timer == None
      ensures var fire := old(timer).Some? &&
        AutoClassifyGuard(old(timer).value.description, old(timer).value.category, old(timer).value.priority);
        && (fire ==> !isClassifying)
        && (!fire ==> isClassifying == old(isClassifying))
        && (fire && !fails ==> category == SuggestCategory(old(timer).value.description)
                               && priority == SuggestPriority(old(timer).value.description))
        && (!fire || fails ==> category == old(category) && priority == old(priority))
    {
      if timer.Some? {
        var snap := timer.value;
        timer := None;
        if AutoClassifyGuard(snap.description, snap.category, snap.priority) {
          ClassifyDescription(snap.description, fails);
        }
      }
    }

    /** The debounce timer firing with the guard evaluated on the current
        state: a category or priority chosen while the timer was pending is
        never overwritten. */
    method DebounceElapsed(fails: bool)
      modifies this`category, this`priority, this`isClassifying, this`timer
      ensures timer == None
      ensures old(category) != "" || old(priority) != "" ==>
        category == old(category) && priority == old(priority) && isClassifying == old(isClassifying)
      ensures var fire := old(timer).Some? && AutoClassifyGuard(description, old(category), old(priority));
        && (fire ==> !isClassifying)
        && (!fire ==> isClassifying == old(isClassifying))
        && (fire && !fails ==> category == SuggestCategory(description) && priority == SuggestPriority(description))
        && (!fire || fails ==> category == old(category) && priority == old(priority))
    {
      if timer.Some? {
        timer := None;
        if AutoClassifyGuard(description, category, priority) {
          ClassifyDescription(description, fails);
        }
      }
    }

    /** `handleSubmit`: with a field empty nothing happens at all; otherwise
        the ticket is built with status "open" and the submit instant, handed
        over unless the call fails, the fields are cleared after a hand-over,
        and the submitting flag is down again at the end. */
    method HandleSubmit(now: int, fails: bool) returns (emitted: Option<Draft>)
      modifies this
      ensures emitted == SubmitOutcome(old(title), old(description), old(category), old(priority), now, fails)
      ensures !SubmitGuard(old(title), old(description), old(category), old(priority)) ==>
        && title == old(title) && description == old(description)
        && category == old(category) && priority == old(priority)
        && isSubmitting == old(isSubmitting) && timer == old(timer)
      ensures SubmitGuard(old(title), old(description), old(category), old(priority)) ==> !isSubmitting
      ensures emitted.Some? ==>
        && title == "" && description == "" && category == "" && priority == ""
        && timer == Some(Snapshot("", "", ""))
      ensures emitted.None? ==>
        && title == old(title) && description == old(description)
        && category == old(category) && priority == old(priority) && timer == old(timer)
      ensures isClassifying == old(isClassifying)
    {
      if !SubmitGuard(title, description, category, priority) {
        return None;
      }
      isSubmitting := true;
      var ticketData := Draft(title, description, category, priority, "open", now);
      if fails {
        emitted := None;
      } else {
        emitted := Some(ticketData);
        title, description, category, priority := "", "", "", "";
        // the four resets render together; the description effect then re-arms
        timer := Some(Snapshot(description, category, priority));
      }
      isSubmitting := false;
    }
  }

  /** The source's guard at work: the user types a description and picks a
      category before the debounce second is over; when the timer fires the
      pick is overwritten by the suggestion. */
  method StaleGuardOverwritesChoice() returns (chosen: string, after: string)
    ensures chosen == "General" && after != chosen
  {
    var form := new Form();
    form.ChangeDescription("The app crashes on start");
    form.ChangeCategory("General");
    form.DebounceElapsedAsWritten(false);
    chosen, after := "General", form.category;
  }

  /** The same session with the guard on the current state keeps the pick. */
  method CurrentGuardKeepsChoice() returns (chosen: string, after: string)
    ensures chosen == "General" && after == chosen
  {
    var form := new Form();
    form.ChangeDescription("The app crashes on start");
    form.ChangeCategory("General");
    form.DebounceElapsed(false);
    chosen, after := "General", form.category;
  }
}

=== FILE: ticket_list.dfy ===
/** The ticket browser: the filter / sort chain that produces the visible
    list and the status rotation a click on a ticket requests. */
module TicketList {
  import opened Strings
  import opened Tickets

  /** The four filter controls; "All" switches a select off. */
  datatype Filters = Filters(category: string, priority: string, status: string, search: string)

  /** Case-insensitive substring match of the search term over title or
      description. */
  predicate SearchMatches(t: Ticket, term: string)
  {
    Contains(Lower(t.title), Lower(term)) || Contains(Lower(t.description), Lower(term))
  }

  /** The four predicates of the filter callback, ANDed. */
  predicate Matches(t: Ticket, f: Filters)
  {
    && (f.category == "All" || t.category == f.category)
    && (f.priority == "All" || t.priority == f.priority)
    && (f.status == "All" || t.status == f.status)
    && SearchMatches(t, f.search)
  }

  /** r keeps some of the elements of s, in their order. */
  ghost predicate IsSubsequence(r: seq<Ticket>, s: seq<Ticket>)
    decreases |s|
  {
    if r == [] then true
    else if s == [] then false
    else (r[0] == s[0] && IsSubsequence(r[1..], s[1..])) || IsSubsequence(r, s[1..])
  }

  /** `tickets.filter(...)`: keeps exactly the matching tickets, in order, with
      their multiplicities. */
  function Filter(ts: seq<Ticket>, f: Filters): (r: seq<Ticket>)
    ensures IsSubsequence(r, ts)
    ensures forall t :: t in r ==> Matches(t, f)
    ensures forall t :: multiset(r)[t] == if Matches(t, f) then multiset(ts)[t] else 0
  {
    if ts == [] then []
    else
      var rest := Filter(ts[1..], f);
      assert ts == [ts[0]] + ts[1..];
      if Matches(ts[0], f) then [ts[0]] + rest else rest
  }

  /** Searching "dark mode" finds a ticket titled "Feature request: Dark
      mode". */
  lemma DarkModeScenario(t: Ticket)
    requires t.title == "Feature request: Dark mode"
    ensures SearchMatches(t, "dark mode")
  {
    var lower := Lower(t.title);
    assert Lower("dark mode") == "dark mode";
    assert lower[17..26] == "dark mode";
    assert OccursAt(lower, "dark mode", 17);
  }

  // ----- predicate order -----

  /** One of the four predicates on its own. */
  datatype Criterion = ByCategory(category: string) | ByPriority(priority: string)
                     | ByStatus(status: string) | BySearch(term: string)

  predicate Holds(t: Ticket, c: Criterion)
  {
    match c
    case ByCategory(x) => x == "All" || t.category == x
    case ByPriority(x) => x == "All" || t.priority == x
    case ByStatus(x) => x == "All" || t.status == x
    case BySearch(x) => SearchMatches(t, x)
  }

  /** The four criteria a set of filters stands for. */
  function Criteria(f: Filters): seq<Criterion>
  {
    [ByCategory(f.category), ByPriority(f.priority), ByStatus(f.status), BySearch(f.search)]
  }

  /** Filtering by one criterion. */
  function Keep(ts: seq<Ticket>, c: Criterion): seq<Ticket>
  {
    if ts == [] then []
    else if Holds(ts[0], c) then [ts[0]] + Keep(ts[1..], c)
    else Keep(ts[1..], c)
  }

  /** Filtering by the criteria one after the other, in the order given. */
  function KeepAll(ts: seq<Ticket>, cs: seq<Criterion>): seq<Ticket>
    decreases |cs|
  {
    if cs == [] then ts else KeepAll(Keep(ts, cs[0]), cs[1..])
  }

  /** The ticket meets every criterion in cs. */
  predicate HoldsAll(t: Ticket, cs: seq<Criterion>)
  {
    forall c :: c in cs ==> Holds(t, c)
  }

  /** Filtering by all criteria in one pass. */
  function KeepWhereAll(ts: seq<Ticket>, cs: seq<Criterion>): seq<Ticket>
  {
    if ts == [] then []
    else if HoldsAll(ts[0], cs) then [ts[0]] + KeepWhereAll(ts[1..], cs)
    else KeepWhereAll(ts[1..], cs)
  }

  /** One more stage in front of a one-pass filter is the one-pass filter
      with that criterion added. */
  lemma {:induction false} KeepThenKeepWhereAll(ts: seq<Ticket>, c: Criterion, cs: seq<Criterion>)
    ensures KeepWhereAll(Keep(ts, c), cs) == KeepWhereAll(ts, [c] + cs)
  {
    if ts != [] {
      KeepThenKeepWhereAll(ts[1..], c, cs);
      assert HoldsAll(ts[0], [c] + cs) <==> Holds(ts[0], c) && HoldsAll(ts[0], cs);
    }
  }

  /** Staged filtering is one-pass filtering by the conjunction. */
  lemma {:induction false} KeepAllIsKeepWhereAll(ts: seq<Ticket>, cs: seq<Criterion>)
    ensures KeepAll(ts, cs) == KeepWhereAll(ts, cs)
    decreases |cs|
  {
    if cs == [] {
      KeepWhereNothing(ts);
    } else {
      KeepAllIsKeepWhereAll(Keep(ts, cs[0]), cs[1..]);
      KeepThenKeepWhereAll(ts, cs[0], cs[1..]);
      assert [cs[0]] + cs[1..] == cs;
    }
  }

  /** With no criteria, nothing is dropped. */
  lemma {:induction false} KeepWhereNothing(ts: seq<Ticket>)
    ensures KeepWhereAll(ts, []) == ts
  {
    if ts != [] {
      KeepWhereNothing(ts[1..]);
    }
  }

  /** The one-pass filter depends only on which criteria there are. */
  lemma {:induction false} KeepWhereAllSameCriteria(ts: seq<Ticket>, cs: seq<Criterion>, ds: seq<Criterion>)
    requires forall c :: c in cs <==> c in ds
    ensures KeepWhereAll(ts, cs) == KeepWhereAll(ts, ds)
  {
    if ts != [] {
      KeepWhereAllSameCriteria(ts[1..], cs, ds);
    }
  }

  /** The filter callback is the one-pass filter by its four criteria. */
  lemma {:induction false} FilterIsKeepWhereAll(ts: seq<Ticket>, f: Filters)
    ensures Filter(ts, f) == KeepWhereAll(ts, Criteria(f))
  {
    if ts != [] {
      FilterIsKeepWhereAll(ts[1..], f);
      var t := ts[0];
      assert Matches(t, f) <==> HoldsAll(t, Criteria(f)) by {
        var cs := Criteria(f);
        assert cs[0] in cs && cs[1] in cs && cs[2] in cs && cs[3] in cs;
      }
    }
  }

  /** Applying the four predicates one after the other, in any order, keeps
      the same tickets as the single filter callback. */
  lemma PredicateOrderIrrelevant(ts: seq<Ticket>, f: Filters, cs: seq<Criterion>)
    requires multiset(cs) == multiset(Criteria(f))
    ensures KeepAll(ts, cs) == Filter(ts, f)
  {
    forall c ensures c in cs <==> c in Criteria(f) {
      assert c in cs <==> c in multiset(cs);
      assert c in Criteria(f) <==> c in multiset(Criteria(f));
    }
    KeepAllIsKeepWhereAll(ts, cs);
    KeepWhereAllSameCriteria(ts, cs, Criteria(f));
    FilterIsKeepWhereAll(ts, f);
  }

  /** Selects set to "All" and an empty search keep every ticket. */
  lemma {:induction false} NoFiltersKeepsAll(ts: seq<Ticket>)
    ensures Filter(ts, Filters("All", "All", "All", "")) == ts
  {
    if ts != [] {
      NoFiltersKeepsAll(ts[1..]);
      ContainsEmpty(Lower(ts[0].title));
      assert Lower("") == "";
    }
  }

  /** A select set to "All" never excludes a ticket, and an empty search
      term matches every ticket. */
  lemma AllImposesNothing(t: Ticket, f: Filters)
    ensures f.category == "All" ==> Holds(t, ByCategory(f.category))
    ensures f.priority == "All" ==> Holds(t, ByPriority(f.priority))
    ensures f.status == "All" ==> Holds(t, ByStatus(f.status))
    ensures SearchMatches(t, "")
  {
    ContainsEmpty(Lower(t.title));
    assert Lower("") == "";
  }

  /** The search ignores case: any term and its lowercase form match the
      same tickets, and a match means the lowercased term is a substring of
      the lowercased title or description. */
  lemma SearchIgnoresCase(t: Ticket, term: string)
    ensures SearchMatches(t, term) == SearchMatches(t, Lower(term))
    ensures SearchMatches(t, term) <==>
      HasSubstring(Lower(t.title), Lower(term)) || HasSubstring(Lower(t.description), Lower(term))
  {
    LowerIdempotent(term);
  }

  // ----- recency sort -----

  /** Newest first: timestamps never increase along the list. */
  ghost predicate NewestFirst(ts: seq<Ticket>)
  {
    forall i, j :: 0 <= i < j < |ts| ==> ts[i].timestamp >= ts[j].timestamp
  }

  /** The tickets of s stamped at instant k, in order. */
  function StampedAt(s: seq<Ticket>, k: int): seq<Ticket>
  {
    if s == [] then []
    else if s[0].timestamp == k then [s[0]] + StampedAt(s[1..], k)
    else StampedAt(s[1..], k)
  }

  /** Places t before the first ticket that is not newer than it. */
  function Insert(t: Ticket, s: seq<Ticket>): (r: seq<Ticket>)
    ensures multiset(r) == multiset(s) + multiset{t}
  {
    if s == [] || s[0].timestamp <= t.timestamp then [t] + s
    else
      assert s == [s[0]] + s[1..];
      [s[0]] + Insert(t, s[1..])
  }

  /** Inserting into a newest-first list keeps it newest first. */
  lemma {:induction false} InsertNewestFirst(t: Ticket, s: seq<Ticket>)
    requires NewestFirst(s)
    ensures NewestFirst(Insert(t, s))
  {
    if s == [] || s[0].timestamp <= t.timestamp {
    } else {
      var rest := Insert(t, s[1..]);
      InsertNewestFirst(t, s[1..]);
      forall j | 0 <= j < |rest| ensures s[0].timestamp >= rest[j].timestamp {
        assert rest[j] in multiset(rest);
        if rest[j] != t {
          assert rest[j] in multiset(s[1..]);
          var m :| 0 <= m < |s[1..]| && s[1..][m] == rest[j];
          assert s[m + 1] == rest[j];
        }
      }
      var r := [s[0]] + rest;
      assert r[1..] == rest;
    }
  }

  /** Inserting t puts it ahead of every ticket with its timestamp and
      leaves the other timestamps' tickets in order. */
  lemma {:induction false} InsertStampedAt(t: Ticket, s: seq<Ticket>, k: int)
    ensures StampedAt(Insert(t, s), k) == if t.timestamp == k then [t] + StampedAt(s, k) else StampedAt(s, k)
  {
    if s == [] || s[0].timestamp <= t.timestamp {
      assert ([t] + s)[1..] == s;
    } else {
      InsertStampedAt(t, s[1..], k);
      assert ([s[0]] + Insert(t, s[1..]))[1..] == Insert(t, s[1..]);
    }
  }

  /** `.sort((a, b) => b.timestamp - a.timestamp)`: newest first, the same
      tickets, and tickets with equal timestamps keep their input order. */
  function SortNewestFirst(ts: seq<Ticket>): (r: seq<Ticket>)
    ensures NewestFirst(r)
    ensures multiset(r) == multiset(ts)
    ensures forall k :: StampedAt(r, k) == StampedAt(ts, k)
  {
    if ts == [] then []
    else
      var rest := SortNewestFirst(ts[1..]);
      assert ts == [ts[0]] + ts[1..];
      InsertNewestFirst(ts[0], rest);
      assert forall k :: StampedAt(Insert(ts[0], rest), k) == StampedAt(ts, k) by {
        forall k ensures StampedAt(Insert(ts[0], rest), k) == StampedAt(ts, k) {
          InsertStampedAt(ts[0], rest, k);
        }
      }
      Insert(ts[0], rest)
  }

  /** `filteredTickets`: the filtered tickets, newest first, ties in list
      order. */
  function Visible(ts: seq<Ticket>, f: Filters): (r: seq<Ticket>)
    ensures NewestFirst(r)
    ensures forall t :: t in r ==> Matches(t, f) && t in ts
    ensures forall t :: multiset(r)[t] == if Matches(t, f) then multiset(ts)[t] else 0
    ensures forall k :: StampedAt(r, k) == StampedAt(Filter(ts, f), k)
  {
    var r := SortNewestFirst(Filter(ts, f));
    assert forall t :: t in r ==> t in multiset(Filter(ts, f));
    r
  }

  // ----- status rotation -----

  const STATUSES: seq<string> := ["open", "in_progress", "resolved"]

  /** `statuses.indexOf(s)`: the first index of s, or -1. */
  function IndexOf(xs: seq<string>, x: string): (i: int)
    ensures -1 <= i < |xs|
    ensures i == -1 <==> x !in xs
    ensures 0 <= i ==> xs[i] == x && forall j :: 0 <= j < i ==> xs[j] != x
  {
    if xs == [] then -1
    else if xs[0] == x then 0
    else
      var i := IndexOf(xs[1..], x);
      if i == -1 then -1 else i + 1
  }

  /** `statuses[(indexOf + 1) % 3]`. */
  function NextStatus(s: string): (r: string)
    ensures r in STATUSES
  {
    STATUSES[(IndexOf(STATUSES, s) + 1) % |STATUSES|]
  }

  /** The cycle open -> in_progress -> resolved -> open; anything else goes
      to open. */
  lemma RotationCycle(s: string)
    ensures NextStatus("open") == "in_progress"
    ensures NextStatus("in_progress") == "resolved"
    ensures NextStatus("resolved") == "open"
    ensures s !in STATUSES ==> NextStatus(s) == "open"
  {
    assert IndexOf(STATUSES, "open") == 0;
    assert STATUSES[1..][0] == "in_progress";
    assert IndexOf(STATUSES, "in_progress") == 1;
    assert STATUSES[1..][1..][0] == "resolved";
    assert IndexOf(STATUSES, "resolved") == 2;
  }

  /** Three clicks bring a valid status back to itself; any status is valid
      after one click. */
  lemma ThreeRotationsAreIdentity(s: string)
    ensures s in STATUSES ==> NextStatus(NextStatus(NextStatus(s))) == s
    ensures NextStatus(NextStatus(NextStatus(NextStatus(s)))) == NextStatus(s)
  {
    RotationCycle(s);
  }

  /** `handleStatusRotate(ticket)`: the id and next status handed to
      `onStatusChange`. */
  function RotationRequest(t: Ticket): (req: (int, string))
    ensures req.0 == t.id && req.1 in STATUSES
  {
    (t.id, NextStatus(t.status))
  }
}

=== FILE: tickets.dfy ===
/** The ticket record shared by the form, the store, the list and the
    dashboard. Category, priority and status stay strings, as in the source,
    because the list's filters and the status rotation compare them as text
    and must cope with values outside the enumerations. */
module Tickets {

  /** A ticket as the form emits it: everything but the id. The creation
      instant is an integer count of milliseconds. */
  datatype Draft = Draft(
    title: string,
    description: string,
    category: string,
    priority: string,
    status: string,
    timestamp: int)

  /** A ticket held by the store. */
  datatype Ticket = Ticket(
    id: int,
    title: string,
    description: string,
    category: string,
    priority: string,
    status: string,
    timestamp: int)

  /** `{ ...draft, id }`: the draft's fields with an id added. */
  function WithId(d: Draft, id: int): (t: Ticket)
    ensures t.id == id && DraftOf(t) == d
  {
    Ticket(id, d.title, d.description, d.category, d.priority, d.status, d.timestamp)
  }

  /** Everything a ticket carries except its id. */
  function DraftOf(t: Ticket): Draft
  {
    Draft(t.title, t.description, t.category, t.priority, t.status, t.timestamp)
  }

  /** `{ ...t, status }`: the same ticket with another status. */
  function WithStatus(t: Ticket, status: string): Ticket
  {
    t.(status := status)
  }
}

=== FILE: views.dfy ===
/** The Django views' own logic: validating a classify request, cleaning and
    clamping the model's reply, and assembling the stats response. The ORM
    queries, the environment lookup, the model call and `json.loads` are
    inputs: their results arrive as values, and `None` stands for an
    exception raised anywhere inside the guarded call. */
module Views {
  import opened Wrappers
  import opened Strings

  /** A decoded JSON value, as Python sees it. */
  datatype Json =
    | JNull
    | JBool(b: bool)
    | JNum(n: real)
    | JStr(s: string)
    | JArr(items: seq<Json>)
    | JObj(fields: map<string, Json>)

  /** Python truthiness (`if not value`). */
  predicate Truthy(j: Json)
  {
    match j
    case JNull => false
    case JBool(b) => b
    case JNum(n) => n != 0.0
    case JStr(s) => s != ""
    case JArr(items) => items != []
    case JObj(fields) => fields != map[]
  }

  const ALLOWED_CATEGORIES: seq<string> := ["billing", "technical", "account", "general"]
  const ALLOWED_PRIORITIES: seq<string> := ["low", "medium", "high"]
  const DEFAULT_CATEGORY := "general"
  const DEFAULT_PRIORITY := "low"

  const INVALID_FORMAT := "Invalid request format. Expected a JSON object with a 'description' field."
  const DESCRIPTION_REQUIRED := "Description is required"

  /** The two kinds of classify response: HTTP 400 with an error message, or
      HTTP 200 with a classification. */
  datatype Response = BadRequest(error: string) | Classified(category: string, priority: string)

  const DEFAULT_RESPONSE := Classified(DEFAULT_CATEGORY, DEFAULT_PRIORITY)

  /** The request carries a truthy `description` field. */
  predicate HasDescription(data: Json)
  {
    data.JObj? && "description" in data.fields && Truthy(data.fields["description"])
  }

  /** The request checks: a body that is not an object, then a missing or
      falsy description, are rejected in that order. */
  function ValidateRequest(data: Json): (r: Option<Response>)
    ensures r.None? <==> HasDescription(data)
    ensures !data.JObj? ==> r == Some(BadRequest(INVALID_FORMAT))
    ensures data.JObj? && !HasDescription(data) ==> r == Some(BadRequest(DESCRIPTION_REQUIRED))
  {
    if !data.JObj? then Some(BadRequest(INVALID_FORMAT))
    else if "description" !in data.fields || !Truthy(data.fields["description"]) then
      Some(BadRequest(DESCRIPTION_REQUIRED))
    else None
  }

  predicate IsBacktick(c: char)
  {
    c == '`'
  }

  /** The "```json" branch: remove every "```json", then every "```", then
      strip; no fence survives. */
  function RemoveJsonFences(content: string): (r: string)
    ensures !Contains(r, "```") && !Contains(r, "```json")
  {
    var once := RemoveAll(content, "```json");
    var twice := RemoveAll(once, "```");
    var r := Strip(twice);
    RemoveFenceLeavesNoFence(once);
    SliceKeepsAbsence(r, twice, "```");
    LongerNeedleAbsent(r, "```", "```json");
    r
  }

  /** The other "```" branch: `strip("`")` then `strip()`; the result is a
      slice of the content. */
  function StripBackticks(content: string): (r: string)
    ensures IsSliceOf(r, content)
  {
    var inner := StripBy(content, IsBacktick);
    var r := Strip(inner);
    SliceOfSlice(r, inner, content);
    r
  }

  /** The markdown clean-up of the stripped reply: a "```json" opener has
      every "```json" and then every "```" removed, another "```" opener has
      backticks stripped from both ends; anything else is left alone. */
  function CleanFences(content: string): (r: string)
    ensures StartsWith(content, "```json") ==> !Contains(r, "```") && !Contains(r, "```json")
    ensures StartsWith(content, "```") && !StartsWith(content, "```json") ==> IsSliceOf(r, content)
    ensures !StartsWith(content, "```") ==> r == content
  {
    if StartsWith(content, "```json") then RemoveJsonFences(content)
    else if StartsWith(content, "```") then StripBackticks(content)
    else content
  }

  /** No character of x is a backtick. */
  predicate NoBacktick(x: string)
  {
    forall i :: 0 <= i < |x| ==> x[i] != '`'
  }

  /** A payload fenced as "```json ... ```" comes back as the stripped
      payload. */
  lemma JsonFenceRoundTrip(x: string)
    requires NoBacktick(x)
    ensures RemoveJsonFences("```json" + x + "```") == Strip(x)
  {
    assert "```json" + x + "```" == "```json" + (x + "```");
    RemoveAllLeading("```json", x + "```");
    RemoveAllSkipsPlain(x, "```", "```json");
    assert RemoveAll("```", "```json") == "```";
    RemoveAllSkipsPlain(x, "```", "```");
    assert "```" == "```" + "";
    RemoveAllLeading("```", "");
    assert x + "" == x;
  }

  /** A payload fenced as "``` ... ```" comes back as the stripped payload,
      provided it neither starts nor ends with a backtick. */
  lemma BacktickFenceRoundTrip(x: string)
    requires x == [] || (!IsBacktick(x[0]) && !IsBacktick(x[|x| - 1]))
    ensures StripBackticks("```" + x + "```") == Strip(x)
  {
    if x == [] {
      assert "```" + x + "```" == "``````";
      StripByAll("``````", IsBacktick);
      StripByAll(x, IsSpace);
    } else {
      StripByPadded("```", x, "```", IsBacktick);
    }
  }

  /** A "```" fence opens with "```json" only when its payload starts with
      "json". */
  lemma FenceOpener(x: string)
    ensures StartsWith("```" + x + "```", "```json") ==> StartsWith(x, "json")
  {
    var c := "```" + x + "```";
    if StartsWith(c, "```json") {
      assert c[3 + |x|] == '`';
      assert forall i :: 3 <= i < 7 ==> c[i] == "```json"[i];
      assert |x| >= 4;
      assert x[..4] == c[3..7];
    }
  }

  /** The clean-up returns the stripped payload of a "```json" fence. */
  lemma CleanJsonFence(x: string)
    requires NoBacktick(x)
    ensures CleanFences("```json" + x + "```") == Strip(x)
  {
    assert ("```json" + x + "```")[..7] == "```json";
    JsonFenceRoundTrip(x);
  }

  /** The clean-up returns the stripped payload of a plain "```" fence. */
  lemma CleanPlainFence(x: string)
    requires !StartsWith(x, "json")
    requires x == [] || (!IsBacktick(x[0]) && !IsBacktick(x[|x| - 1]))
    ensures CleanFences("```" + x + "```") == Strip(x)
  {
    assert ("```" + x + "```")[..3] == "```";
    FenceOpener(x);
    BacktickFenceRoundTrip(x);
  }

  /** `value.lower()` when the value is a string; anything else raises. */
  function LowerOf(j: Json): (r: Option<string>)
    ensures r.Some? <==> j.JStr?
    ensures r.Some? ==> r.value == Lower(j.s)
    ensures r.Some? ==> |r.value| == |j.s| && Lower(r.value) == r.value
  {
    if j.JStr? then LowerIdempotent(j.s); Some(Lower(j.s)) else None
  }

  /** One field of the classification: `get(key, fallback).lower()`, replaced
      by the fallback when outside the allowed values; `None` when Python
      raises (the field holds something other than a string). */
  function ClampField(fields: map<string, Json>, key: string, allowed: seq<string>, fallback: string): (r: Option<string>)
    requires fallback in allowed && fallback == Lower(fallback)
    ensures r.Some? ==> r.value in allowed
    ensures r.None? <==> key in fields && !fields[key].JStr?
    ensures key !in fields ==> r == Some(fallback)
    ensures key in fields && fields[key].JStr? && Lower(fields[key].s) in allowed ==> r == Some(Lower(fields[key].s))
    ensures key in fields && fields[key].JStr? && Lower(fields[key].s) !in allowed ==> r == Some(fallback)
  {
    var raw := if key in fields then LowerOf(fields[key]) else Some(Lower(fallback));
    match raw
    case None => None
    case Some(v) => if v in allowed then Some(v) else Some(fallback)
  }

  /** The parsed classification turned into a response; `None` when Python
      raises (not an object, or a field that is not a string). */
  function Clamp(classification: Json): (r: Option<Response>)
    ensures r.Some? ==>
      && r.value.Classified?
      && r.value.category in ALLOWED_CATEGORIES
      && r.value.priority in ALLOWED_PRIORITIES
    ensures r.None? <==>
      || !classification.JObj?
      || ("category" in classification.fields && !classification.fields["category"].JStr?)
      || ("priority" in classification.fields && !classification.fields["priority"].JStr?)
    ensures r.Some? ==>
      && Lower(DEFAULT_CATEGORY) == DEFAULT_CATEGORY && Lower(DEFAULT_PRIORITY) == DEFAULT_PRIORITY
      && Some(r.value.category) == ClampField(classification.fields, "category", ALLOWED_CATEGORIES, DEFAULT_CATEGORY)
      && Some(r.value.priority) == ClampField(classification.fields, "priority", ALLOWED_PRIORITIES, DEFAULT_PRIORITY)
  {
    if !classification.JObj? then None
    else
      assert Lower(DEFAULT_CATEGORY) == DEFAULT_CATEGORY;
      assert Lower(DEFAULT_PRIORITY) == DEFAULT_PRIORITY;
      var category := ClampField(classification.fields, "category", ALLOWED_CATEGORIES, DEFAULT_CATEGORY);
      var priority := ClampField(classification.fields, "priority", ALLOWED_PRIORITIES, DEFAULT_PRIORITY);
      if category.None? || priority.None? then None
      else Some(Classified(category.value, priority.value))
  }

  /** `TicketClassifyView.post`. `apiKey` is the environment variable,
      `reply` the model's message content (`None` when the client call
      raised), `loads` the JSON decoder (`None` when it raised). */
  function ClassifyPost(data: Json, apiKey: Option<string>, reply: Option<string>,
                        loads: string -> Option<Json>): (resp: Response)
    ensures !data.JObj? ==> resp == BadRequest(INVALID_FORMAT)
    ensures data.JObj? && !HasDescription(data) ==> resp == BadRequest(DESCRIPTION_REQUIRED)
    ensures resp.BadRequest? <==> !HasDescription(data)
    ensures HasDescription(data) && (apiKey.None? || apiKey == Some("")) ==> resp == DEFAULT_RESPONSE
    ensures HasDescription(data) && reply.None? ==> resp == DEFAULT_RESPONSE
    ensures resp.Classified? ==> resp.category in ALLOWED_CATEGORIES && resp.priority in ALLOWED_PRIORITIES
    ensures HasDescription(data) && apiKey.Some? && apiKey.value != "" && reply.Some? ==>
      var parsed := loads(CleanFences(Strip(reply.value)));
      && (parsed.None? ==> resp == DEFAULT_RESPONSE)
      && (parsed.Some? && Clamp(parsed.value).None? ==> resp == DEFAULT_RESPONSE)
      && (parsed.Some? && Clamp(parsed.value).Some? ==> resp == Clamp(parsed.value).value)
  {
    match ValidateRequest(data)
    case Some(rejection) => rejection
    case None =>
      if apiKey.None? || apiKey.value == "" then DEFAULT_RESPONSE
      else if reply.None? then DEFAULT_RESPONSE
      else
        var content := CleanFences(Strip(reply.value));
        match loads(content)
        case None => DEFAULT_RESPONSE
        case Some(classification) =>
          match Clamp(classification)
          case None => DEFAULT_RESPONSE
          case Some(resp) => resp
  }

  /** A reply fenced as "```json ... ```" is decoded from its stripped
      payload and the answer is that payload's clamped classification, or
      the default when decoding or clamping raises. */
  lemma FencedJsonReply(data: Json, key: string, x: string, loads: string -> Option<Json>)
    requires HasDescription(data) && key != "" && NoBacktick(x)
    ensures var parsed := loads(Strip(x));
      ClassifyPost(data, Some(key), Some("```json" + x + "```"), loads) ==
        if parsed.Some? && Clamp(parsed.value).Some? then Clamp(parsed.value).value else DEFAULT_RESPONSE
  {
    var c := "```json" + x + "```";
    StripByKeeps(c, IsSpace);
    CleanJsonFence(x);
  }

  // ----- stats -----

  function Sum(xs: seq<nat>): nat
  {
    if xs == [] then 0 else xs[0] + Sum(xs[1..])
  }

  /** Every element is at most m, so the sum is at most |xs| * m. */
  lemma {:induction false} SumAtMost(xs: seq<nat>, m: nat)
    requires forall i :: 0 <= i < |xs| ==> xs[i] <= m
    ensures Sum(xs) <= |xs| * m
  {
    if xs != [] {
      SumAtMost(xs[1..], m);
    }
  }

  /** Every element is at least m, so the sum is at least |xs| * m. */
  lemma {:induction false} SumAtLeast(xs: seq<nat>, m: nat)
    requires forall i :: 0 <= i < |xs| ==> m <= xs[i]
    ensures |xs| * m <= Sum(xs)
  {
    if xs != [] {
      SumAtLeast(xs[1..], m);
    }
  }

  predicate AllAtMost(xs: seq<nat>, m: nat)
  {
    forall i :: 0 <= i < |xs| ==> xs[i] <= m
  }

  predicate AllAtLeast(xs: seq<nat>, m: nat)
  {
    forall i :: 0 <= i < |xs| ==> m <= xs[i]
  }

  /** `sum(counts) / len(counts)` when there are daily groups, else 0. */
  function AveragePerDay(counts: seq<nat>): (avg: real)
    ensures counts == [] ==> avg == 0.0
    ensures counts != [] ==> avg * |counts| as real == Sum(counts) as real
  {
    if counts == [] then 0.0
    else
      var n := |counts| as real;
      var avg := Sum(counts) as real / n;
      assert avg * n == Sum(counts) as real;
      avg
  }

  /** Dividing out a positive factor keeps an inequality. */
  lemma CancelPositive(a: real, b: real, n: real)
    requires n > 0.0 && a * n <= b * n
    ensures a <= b
  {
  }

  /** Integer products carry over to reals. */
  lemma ProductAsReal(a: nat, b: nat)
    ensures (a * b) as real == a as real * b as real
  {
  }

  /** A quotient times its positive divisor bounded by the divisor times hi
      is itself at most hi. */
  lemma QuotientAtMost(avg: real, n: nat, total: nat, hi: nat)
    requires n > 0 && avg * n as real == total as real && total <= n * hi
    ensures avg <= hi as real
  {
    ProductAsReal(n, hi);
    assert avg * n as real <= hi as real * n as real;
    CancelPositive(avg, hi as real, n as real);
  }

  /** The lower-bound counterpart of QuotientAtMost. */
  lemma QuotientAtLeast(avg: real, n: nat, total: nat, lo: nat)
    requires n > 0 && avg * n as real == total as real && n * lo <= total
    ensures lo as real <= avg
  {
    ProductAsReal(n, lo);
    assert lo as real * n as real <= avg * n as real;
    CancelPositive(lo as real, avg, n as real);
  }

  /** The average lies between any lower and any upper bound of the daily
      counts. */
  lemma AverageWithinBounds(counts: seq<nat>, lo: nat, hi: nat)
    requires counts != []
    requires AllAtLeast(counts, lo) && AllAtMost(counts, hi)
    ensures lo as real <= AveragePerDay(counts) <= hi as real
  {
    SumAtMost(counts, hi);
    SumAtLeast(counts, lo);
    QuotientAtMost(AveragePerDay(counts), |counts|, Sum(counts), hi);
    QuotientAtLeast(AveragePerDay(counts), |counts|, Sum(counts), lo);
  }

  /** The keys of the grouped rows. */
  function RowKeys(rows: seq<(string, nat)>): set<string>
  {
    set i | 0 <= i < |rows| :: rows[i].0
  }

  /** `{row[key]: row['count'] for row in rows}`: later rows win. */
  function ToDict(rows: seq<(string, nat)>): (d: map<string, nat>)
    ensures d.Keys == RowKeys(rows)
    ensures forall i :: 0 <= i < |rows| && LastWithKey(rows, i) ==> d[rows[i].0] == rows[i].1
  {
    if rows == [] then map[]
    else
      var init := rows[..|rows| - 1];
      var last := rows[|rows| - 1];
      var d := ToDict(init)[last.0 := last.1];
      assert forall i :: 0 <= i < |rows| - 1 ==> init[i] == rows[i];
      assert RowKeys(rows) == RowKeys(init) + {last.0} by {
        forall k | k in RowKeys(rows) ensures k in RowKeys(init) + {last.0} {
          var i :| 0 <= i < |rows| && rows[i].0 == k;
          if i < |rows| - 1 { assert init[i].0 == k; }
        }
      }
      forall i | 0 <= i < |rows| && LastWithKey(rows, i) ensures d[rows[i].0] == rows[i].1 {
        if i < |rows| - 1 {
          assert LastWithKey(init, i);
        }
      }
      d
  }

  /** No later row has row i's key. */
  predicate LastWithKey(rows: seq<(string, nat)>, i: int)
    requires 0 <= i < |rows|
  {
    forall j :: i < j < |rows| ==> rows[j].0 != rows[i].0
  }

  /** The values of a model's choices (the labels are ignored). */
  function ChoiceValues(choices: seq<(string, string)>): set<string>
  {
    set i | 0 <= i < |choices| :: choices[i].0
  }

  /** The `setdefault(choice, 0)` loop over the model's choices: every choice
      gets a key, counts already present stay as they are, new keys get 0. */
  method ZeroFill(d: map<string, nat>, choices: seq<(string, string)>) returns (r: map<string, nat>)
    ensures r.Keys == d.Keys + ChoiceValues(choices)
    ensures forall k :: k in d ==> r[k] == d[k]
    ensures forall k :: k in r && k !in d ==> r[k] == 0
  {
    r := d;
    for n := 0 to |choices|
      invariant r.Keys == d.Keys + ChoiceValues(choices[..n])
      invariant forall k :: k in d ==> r[k] == d[k]
      invariant forall k :: k in r && k !in d ==> r[k] == 0
    {
      var (choice, _) := choices[n];
      if choice !in r {
        r := r[choice := 0];
      }
      assert ChoiceValues(choices[..n + 1]) == ChoiceValues(choices[..n]) + {choice} by {
        assert forall i :: 0 <= i < n ==> choices[..n + 1][i] == choices[..n][i];
      }
    }
    assert choices[..|choices|] == choices;
  }

  /** The stats response body, before rounding the average. */
  datatype StatsBody = StatsBody(
    totalTickets: nat,
    openTickets: nat,
    avgTicketsPerDay: real,
    priorityBreakdown: map<string, nat>,
    categoryBreakdown: map<string, nat>)

  /** `TicketStatsView.get` over the query results: the two counts, the daily
      counts, the two grouped rows and the model's choice lists. */
  method StatsGet(totalTickets: nat, openTickets: nat, dailyCounts: seq<nat>,
                  priorityRows: seq<(string, nat)>, categoryRows: seq<(string, nat)>,
                  priorityChoices: seq<(string, string)>, categoryChoices: seq<(string, string)>)
    returns (body: StatsBody)
    ensures body.totalTickets == totalTickets && body.openTickets == openTickets
    ensures body.avgTicketsPerDay == AveragePerDay(dailyCounts)
    ensures body.priorityBreakdown.Keys == RowKeys(priorityRows) + ChoiceValues(priorityChoices)
    ensures body.categoryBreakdown.Keys == RowKeys(categoryRows) + ChoiceValues(categoryChoices)
    ensures forall k :: k in ToDict(priorityRows) ==> body.priorityBreakdown[k] == ToDict(priorityRows)[k]
    ensures forall k :: k in ToDict(categoryRows) ==> body.categoryBreakdown[k] == ToDict(categoryRows)[k]
    ensures forall k :: k in body.priorityBreakdown && k !in ToDict(priorityRows) ==> body.priorityBreakdown[k] == 0
    ensures forall k :: k in body.categoryBreakdown && k !in ToDict(categoryRows) ==> body.categoryBreakdown[k] == 0
  {
    var avg := AveragePerDay(dailyCounts);
    var priorityDict := ZeroFill(ToDict(priorityRows), priorityChoices);
    var categoryDict := ZeroFill(ToDict(categoryRows), categoryChoices);
    body := StatsBody(totalTickets, openTickets, avg, priorityDict, categoryDict);
  }
}

=== FILE: wrappers.dfy ===
/** The optional value used wherever the source may produce nothing (an empty
    reply, an emitted ticket that was not emitted, a missing dictionary entry). */
module Wrappers {

  datatype Option<+T> = None | Some(value: T)
}
